=== FILE: README.md ===
# Chinook API auth core in Dafny

A model of the authentication and session core of go-chinook-api, a REST
API over the Chinook music database written in Go with gin. The core holds
two tables and a clock:

- the **User** table (username → id, email, bcrypt digest);
- the **Refresh_Tokens** table (token → owner username, expiry).

Over them run the four auth handlers: `Login`, `Signup`, `Refresh` and
`Me`. Each is modelled as a pure transition from (request body, tables,
`now`) to (HTTP status and body, new tables). Around them sit the small
decision functions the handlers rely on:

- the bearer-token extraction and verdict of `AuthMiddlewareJWT`;
- the claim set of `GenerateJWT`;
- `ParseInt`, which is `fmt.Sscan` into an int;
- `getJWTSecret` and `HashPassword`;
- the validation tags of the request bodies and the JSON view of a user;
- `LoadConfig`;
- the status decision of `GetPlaylistTrack`.

Files, one module each:

| file | module | models |
|---|---|---|
| wrappers.dfy | Wrappers | `Option` and `Result` |
| scan.dfy | Scan | Go's `fmt` scanner as the two calls use it: `Sscanf(h, "Bearer %s")` and `Sscan` into an int |
| crypto.dfy | Crypto | bcrypt and the golang-jwt v5 codec as uninterpreted functions (`Suite`), their properties as ghost predicates, `jwt.Parse` |
| config.dfy | Config | `LoadConfig` |
| models.dfy | Models | `User`, the request bodies, their validation, the `Me` view and JSON field lists |
| refresh_token_repo.dfy | RefreshTokenRepo | the Refresh_Tokens table as a map |
| user_repo.dfy | UserRepo | the User table as a map plus the next row id |
| http.dfy | Http | status codes and reply bodies |
| utils.dfy | Utils | `GenerateJWT`, `AuthMiddlewareJWT`, `ParseInt`, `HashPassword`, `getJWTSecret` |
| auth_handler.dfy | AuthHandler | `Login`, `Signup`, `Refresh`, `Me` |
| session.dfy | Session | properties over several requests: the tables' invariant, signup then login, login then refresh, single use of refresh tokens along any run |
| playlist_track_handler.dfy | PlaylistTrackHandler | `GetPlaylistTrack` |
| protected_routes.dfy | ProtectedRoutes | the `/auth/me` route behind the middleware, as written and corrected (see Findings) |

Things that are not values in Go become parameters:

- The clock is `now`, in integer seconds.
- `JWT_SECRET` is `secret`, read when the request runs.
- `GenerateRefreshToken` is `nextToken: Option<string>`. `None` stands for its error. The function is not part of this model.
- The validator's `email` rule is an oracle `isEmail`.
- bcrypt and the JWT codec are the fields of a `Crypto.Suite`. The lemmas
  state what they need of them as ghost predicates: `HashSound` (a digest
  accepts exactly its own password), `CodecSound` (decode inverts encode:
  always the algorithm and signature, and the claims when their dates lie
  within 2^53 seconds, the range a float64 NumericDate holds exactly),
  `TokensAreWords` (a compact JWS contains no spaces) and `MacBindsKey` (the
  MAC depends on the key). A fifth, `DigestHides` (a digest is never the
  password itself), is what Signup's "never stores the plaintext" rests on.
  `HashSound` and `MacBindsKey` are idealisations
  that real bcrypt and HMAC do not meet; "## Left out" names the lemmas
  they affect.

A panic (`getJWTSecret` with an empty secret) becomes a 500 reply with no
body. That is what `gin.Recovery` writes.

Choices the code forces:

- A JWT is accepted while `now < exp`, strictly. jwt v5 rejects a token at
  its `exp` second (section 4.1.4 of RFC 7519). It is not `now <= exp`.
- The middleware requires the literal word `Bearer` followed by at least one
  non-newline space. A header without that prefix gives an empty token and a
  401 "missing token". There is no fallback to the raw header.
- Login tells an unknown user ("invalid username") apart from a wrong
  password ("invalid password").
- The middleware never attaches the caller's identity to the request (see Findings).
- The refresh token's `required` rule is a gin `binding` tag, not a
  `validate` tag. An empty token therefore fails at binding with 400
  "invalid request".

Assumed:

- Usernames, emails and refresh-token values (the Refresh_Tokens.token
  column) are unique; the table schema is not in the source.
  `RefreshTokenRepo.Save` refuses to overwrite a stored token because of
  the unique token column, and `UserRepo.CreateUser` refuses a taken
  username or email for the same reason.
- `UserRepo.Conflict` stands for the error CreateUser returns on such a
  clash: "error creating user: " followed by the sqlite driver's message,
  whose text is not in the source.

## Model

| member | source | states |
|---|---|---|
| Scan.BearerToken | internal/utils/utils.go:28-30 | the token is empty or a single space-free word; a header not opening with "Bearer" yields no token |
| Scan.BearerTokenOfHeader | internal/utils/utils.go:30 | round trip: "Bearer", one or more blanks, a word, then the end or a space, yields exactly that word |
| Scan.BearerTokenShape | internal/utils/utils.go:30 | converse: every non-empty token came from a header "Bearer" + blanks + token + (end or space) |
| Scan.SscanInt | internal/utils/utils.go:50-54 | an integer read by Sscan always lies in the int64 range |
| Crypto.Sign | internal/utils/utils.go:21-22 | a signed token decodes to its algorithm and the MAC of its claims under the key, and, when the claims' dates are exact, to exactly those claims |
| Crypto.Parse | internal/utils/utils.go:35-45 | jwt.Parse is valid exactly when the token decodes, the key function yields a key, the signature is that key's MAC and the claims are in date; it panics exactly when the key function does |
| Crypto.ParseSigned | internal/utils/utils.go:35-45 | a token signed under the key the key function returns verifies exactly while its claims are valid, otherwise fails on its claims |
| Crypto.ParseWrongKey | internal/utils/utils.go:35-45 | a token signed under one key never verifies under another |
| Config.LoadConfig | internal/config/config.go:15-31 | fails exactly when JWT_SECRET is empty; empty PORT and DB_PATH become "8080" and "chinook.db"; non-empty values carry over unchanged |
| Config.LoadConfigFixpoint | internal/config/config.go:15-31 | a loaded config has every field set, and loading it again from its own values gives it back |
| Models.CheckMin | internal/models/user.go:11-12 | a `required,min=n` field passes exactly when it has at least n runes, and otherwise reports "required" for "" and "min" for a short value |
| Models.CheckEmail | internal/models/user.go:17 | a `required,email` field passes exactly when it is non-empty and well-formed |
| Models.ValidateLogin | internal/models/user.go:10-13 | no errors exactly when the username has at least 3 runes and the password at least 6; errors only name the request's fields |
| Models.ValidateSignup | internal/models/user.go:15-19 | no errors exactly when username ≥ 3 runes, email present and well-formed, password ≥ 6 runes |
| Models.RefreshBindable | internal/models/user.go:21-23 | the refresh body binds exactly when the validator's `required` rule passes on the token, and otherwise fails only with "required" on the empty token |
| Models.UserJson | internal/models/user.go:3-8 | the JSON of a user has a "password" member exactly when the password is non-empty (`omitempty`), after id, username, email |
| Models.ClearedUserIsMe | internal/models/user.go:25-29 | a user with the password cleared serialises exactly as its `Me` view, with no password member |
| RefreshTokenRepo.Save | internal/repositories/refresh_token_repo.go:19-26 | succeeds exactly for a new token, adds only that row with the given owner and expiry, and keeps every other row |
| RefreshTokenRepo.Get | internal/repositories/refresh_token_repo.go:28-36 | succeeds exactly for a stored token and returns its stored owner and expiry |
| RefreshTokenRepo.Delete | internal/repositories/refresh_token_repo.go:38-41 | removes exactly the given token and keeps every other row |
| RefreshTokenRepo.SaveThenGet | internal/repositories/refresh_token_repo.go:19-36 | Get right after Save of a new token returns the saved (token, owner, expiry) |
| RefreshTokenRepo.SaveNoOverwrite | internal/repositories/refresh_token_repo.go:19-26 | Save of an existing token is an error, so the stored row is never overwritten |
| RefreshTokenRepo.DeleteOthersUnaffected | internal/repositories/refresh_token_repo.go:38-41 | after Delete, the deleted token is not found and every other lookup is as before |
| RefreshTokenRepo.DeleteIdempotent | internal/repositories/refresh_token_repo.go:38-41 | deleting an absent token changes nothing; deleting twice equals deleting once |
| UserRepo.CreateUser | internal/repositories/user_repo.go:16-27 | fails with id 0 and nothing stored exactly when the username or email is taken; otherwise stores exactly the given username, email and password under a fresh positive id and keeps every other row |
| UserRepo.GetUserByUsername | internal/repositories/user_repo.go:29-40 | returns the row of exactly that username, and "user not found" for every miss |
| UserRepo.CreateUserKeepsValid | internal/repositories/user_repo.go:16-27 | CreateUser keeps ids distinct and positive, emails distinct and rows under their own username |
| UserRepo.CreateThenGet | internal/repositories/user_repo.go:16-40 | Get after a successful Create returns the stored id, username, email and password unchanged |
| UserRepo.CreateKeepsOthers | internal/repositories/user_repo.go:16-40 | creating a user leaves the lookup of every other username as it was |
| Utils.KeyFunc | internal/utils/utils.go:35-41 | the key function refuses exactly the non-HMAC methods, panics exactly for an HMAC method when getJWTSecret would, and otherwise hands out the secret getJWTSecret returns |
| Utils.GetJwtSecret | internal/utils/utils.go:61-67 | fails (panics) exactly when JWT_SECRET is empty, otherwise returns it unchanged |
| Utils.GenerateJwt | internal/utils/utils.go:16-23 | fails exactly when the secret is empty; the token decodes to HS256 and, for an exact expiry, to claims {username, exp: now + 24h} and the MAC under the secret |
| Utils.HashPassword | internal/utils/utils.go:56-59 | succeeds exactly when bcrypt does, and the digest accepts exactly the hashed password |
| Utils.AuthMiddleware | internal/utils/utils.go:26-48 | no token: 401 "missing token"; continues exactly for a decodable HMAC token with the secret's MAC and valid claims; panics exactly for an HMAC token under an empty secret; every other token: 401 "invalid token"; the context passes through unchanged |
| Utils.GeneratedTokenAccepted | internal/utils/utils.go:16-48 | a token from GenerateJWT, sent as "Bearer token", passes the middleware exactly until 24h after issue, then gets 401 "invalid token" |
| Utils.ForeignTokenRejected | internal/utils/utils.go:35-45 | a token signed under another secret gets 401 "invalid token" |
| Utils.NonHmacRejected | internal/utils/utils.go:35-41 | a token whose method is not HMAC gets 401 "invalid token", whatever its signature |
| Utils.ParseInt | internal/utils/utils.go:50-54 | the result is an int64, and 0 whenever Sscan reports an error |
| Utils.ParseIntNoInteger | internal/utils/utils.go:50-54 | input that does not open (after spaces and a sign) with a digit parses as 0 |
| Utils.ParseIntOfItoa | internal/utils/utils.go:50-54 | every int64 written in decimal parses back to itself, after any leading spaces and before any text that cannot continue the number |
| Utils.ParseIntOfOctal | internal/utils/utils.go:50-54 | "0" followed by the base-8 digits of n parses as n ("010" is 8), before any text that cannot continue an octal number |
| AuthHandler.Login | internal/handlers/auth_handler.go:33-76 | bad body 400; failed validation 400 with the field errors; unknown user 401 "invalid username"; wrong password 401 "invalid password"; accepted credentials with an empty secret 500 with no body, with a generator error 500 "could not generate refresh token", with a colliding refresh token 500 "could not save refresh token"; tables unchanged on every failure; 200 exactly for a valid, known user with the right password, a set secret and a fresh refresh token, which is then the only token added, owned by the user for 7 days, and returned with the access token |
| AuthHandler.Signup | internal/handlers/auth_handler.go:88-121 | bad body or failed validation 400; hash error 500; taken username or email: 500 with the storage error; 201 exactly for a valid body with a free username and email, storing the digest (never the plaintext, under `DigestHides`) and answering only a message; tables unchanged otherwise; refresh tokens never touched |
| AuthHandler.Refresh | internal/handlers/auth_handler.go:133-168 | empty or missing token 400; absent or expired token 401 with tables unchanged; a redeemable token with an empty secret 500 with no body, with a generator error 500 "could not generate refresh token", in both cases with the presented token already deleted; otherwise the presented token is removed, other tokens kept, and 200 exactly with a set secret and a generated token, returning a new pair whose refresh token is saved for the same owner for 7 days |
| AuthHandler.Me | internal/handlers/auth_handler.go:177-190 | 401 "unauthorized" without a username in the context; 401 "user not found" for an unknown one; otherwise 200 with id, username and email only |
| Session.InitialStateValid | internal/handlers/auth_handler.go:17-20 | empty user and refresh-token tables, the state the run lemmas start from, satisfy the invariant |
| Session.LoginKeepsInvariant | internal/handlers/auth_handler.go:33-76 | Login keeps the tables well formed and every refresh token owned by a registered user |
| Session.SignupKeepsInvariant | internal/handlers/auth_handler.go:88-121 | Signup keeps the tables well formed and every refresh token owned by a registered user |
| Session.RefreshKeepsInvariant | internal/handlers/auth_handler.go:133-168 | Refresh keeps the tables well formed and every refresh token owned by a registered user |
| Session.SignupThenLogin | internal/handlers/auth_handler.go:33-121 | after a signup, login with that username succeeds exactly with the signup password; any other password gets 401 "invalid password" with nothing changed |
| Session.LoginThenRefresh | internal/handlers/auth_handler.go:33-168 | a login's refresh token is redeemable exactly until 7 days later, gets 401 afterwards, and when redeemed is removed and replaced by a new one for the same user |
| Session.RefreshReplayRejected | internal/handlers/auth_handler.go:143-162 | a refresh token that was accepted once gets 401 when presented again, with nothing changed |
| Session.Serve | internal/routes/routes.go:76-91 | a request changes the refresh-token table only by removing tokens or adding the one generated for it: every other surviving token keeps its owner and expiry |
| Session.Redeemed | internal/handlers/auth_handler.go:143-149 | a step accepts at most one token, one that was stored, and removes it unless it was regenerated |
| Session.RedeemedWereIssued | internal/handlers/auth_handler.go:143-162 | along any run, only tokens stored at the start or generated during the run are accepted |
| Session.SingleUse | internal/handlers/auth_handler.go:133-168 | along any sequence of requests whose generator never repeats a token, no refresh token is accepted twice |
| PlaylistTrackHandler.GetPlaylistTrack | internal/handlers/playlist_track_handler.go:25-47 | id ≤ 0: 400 "Invalid playlist ID"; query error: 500 with its text; no tracks: 404; 200 exactly when the id is positive and tracks exist, with exactly those tracks |
| PlaylistTrackHandler.RejectedIdSkipsRepository | internal/handlers/playlist_track_handler.go:26-32 | for an id ≤ 0 the reply does not depend on the repository at all |
| PlaylistTrackHandler.OnlyParsedIdQueried | internal/handlers/playlist_track_handler.go:26-34 | the reply depends on the repository only through its answer for the parsed id |
| PlaylistTrackHandler.NonNumericIdRejected | internal/handlers/playlist_track_handler.go:26-32 | a path id that does not open with an integer gets 400 "Invalid playlist ID" |
| PlaylistTrackHandler.DecimalIdListed | internal/handlers/playlist_track_handler.go:26-45 | a positive decimal id of a playlist with tracks gets 200 with exactly those tracks |
| PlaylistTrackHandler.OctalIdListed | internal/handlers/playlist_track_handler.go:26-45 | a path id with a leading zero is read in octal: "010" lists playlist 8 |
| ProtectedRoutes.ServeMe | internal/routes/routes.go:84-91 | as written, GET /auth/me behind the middleware never answers 200 |
| ProtectedRoutes.ServeMeRejectsValidToken | internal/utils/utils.go:26-47 | as written, a registered user with their own unexpired token gets 401 "unauthorized" |
| ProtectedRoutes.AuthenticateWithIdentity | internal/utils/utils.go:26-47 | corrected middleware: the same verdicts as AuthMiddlewareJWT, but on continuing the context holds the token's username claim |
| ProtectedRoutes.ServeMeWithIdentityAnswers | internal/handlers/auth_handler.go:177-190 | corrected route: a user's own token gives 200 with their Me view until it expires, then 401 "invalid token" |

## Left out

- bcrypt, HMAC-SHA256 and the JWT encoding are uninterpreted functions. Their properties are assumed as ghost predicates, not proved.
- Session.SignupThenLogin: holds only for idealised bcrypt (`HashSound`). Real bcrypt keys Blowfish with the password and a NUL byte, repeated to fill 72 bytes. So after signing up with "secret1", login also succeeds with "secret1\u0000secret1", which a JSON body can carry, and a 72-byte password accepts any extension of it.
- Utils.HashPassword: its second ensures ("the digest accepts exactly the hashed password") holds only for idealised bcrypt (`HashSound`), for the reason above.
- Utils.ForeignTokenRejected: holds only for idealised HMAC (`MacBindsKey`). Real HMAC zero-pads its key, so a token signed under the secret followed by zero bytes is accepted too. It also asks that the claims' dates lie within 2^53 seconds.
- Crypto.ParseWrongKey: holds only for idealised HMAC (`MacBindsKey`), for the same reason. It also asks that the claims' dates lie within 2^53 seconds.
- Crypto.Sign: promises the decoded claims only when their dates lie within 2^53 seconds. jwt v5 decodes a NumericDate into a float64, which rounds larger values.
- Utils.GenerateJwt: promises the decoded claims and signature only when `now + 24h` lies within 2^53 seconds, for the same reason.
- Crypto.ParseSigned: requires the claims' dates within 2^53 seconds, for the same reason.
- Utils.GeneratedTokenAccepted: requires the expiry within 2^53 seconds (about 285 million years), for the same reason.
- ProtectedRoutes.ServeMeRejectsValidToken: requires the expiry within 2^53 seconds, for the same reason.
- ProtectedRoutes.ServeMeWithIdentityAnswers: requires the expiry within 2^53 seconds, for the same reason.
- `GenerateRefreshToken` is not part of this model. Its result is a parameter. Its freshness is a precondition where a property needs it (`nextToken !in tokens`, `NeverReissued`).
- SQL, the sqlite driver and `context.Context` are left out. The handlers call the repositories without a context, which does not match the repository signatures. Tables are maps.
- The only storage errors modelled are unique-key violations. Disk, connection and driver errors are not.
- Time is integer seconds, read once per request. Login reads the clock twice: in GenerateJWT for the access token's `exp` (internal/utils/utils.go:19) and for the new refresh expiry (internal/handlers/auth_handler.go:66). Refresh reads it three times: for the expiry check (internal/handlers/auth_handler.go:144), in GenerateJWT (called at internal/handlers/auth_handler.go:151) and for the new refresh expiry (internal/handlers/auth_handler.go:161). One `now` stands for all of these readings.
- A bcrypt digest is a function of the password here. Real bcrypt salts each digest, so two hashes of one password differ.
- Login's 500 "could not generate token" and Refresh's equivalent are unreachable. GenerateJWT fails only by panicking on an empty secret, and a panic becomes 500 with no body.
- Refresh ignores the errors of `Delete` and `Save`, and the model does the same. A Save that collides with a stored token leaves the table without the new token, yet the reply is still 200.
- Concurrency is left out. Get-then-Delete in Refresh is not atomic in the source, and two simultaneous refreshes could both succeed. Only sequential runs are modelled.
- `Logout` is routed at internal/routes/routes.go:92, but its handler is not part of this model.
- The catalog handlers and repositories are left out: artists, albums, employees, customers, invoices, tracks, genres, media types and playlists. They are SQL pass-through.
- The playlist track query is the parameter `fetch`. Tracks are an abstract type.
- Route wiring, `GO_ENV` gating, CORS, logging, `fmt.Println` debugging output, Swagger docs, and server start and stop are left out.
- `log.Fatal` in LoadConfig ends the process. It is modelled as `Err`.
- The text of a validator error is left out. `err.Error()` is modelled as the list of failing (field, tag) pairs.
- The `email` rule of the validator is an oracle.
- Strings are sequences of Unicode code points. The `min` rule counts runes, which matches. Invalid UTF-8 is not modelled.
- JSON binding is reduced to "a body of the right shape or not". Unknown fields and type mismatches are not distinguished.

## Findings

| source | as written | input that shows it | evidently intended | confidence | as-written member | corrected member |
|---|---|---|---|---|---|---|
| internal/utils/utils.go:26-47 with internal/handlers/auth_handler.go:178-182 | AuthMiddlewareJWT verifies the token but never stores its `username` claim in the request context. Me reads "username" from the context, so with the middleware in place GET /auth/me answers 401 "unauthorized" to every request the middleware lets through. Without the middleware it does the same. | a registered user sends `Authorization: Bearer <token from their own login>` within 24 hours: the reply is 401 "unauthorized" | on a valid token the middleware stores the `username` claim, and Me answers 200 with that user's id, username and email | high; not executed | ProtectedRoutes.ServeMeRejectsValidToken | ProtectedRoutes.ServeMeWithIdentityAnswers |

=== FILE: auth_handler.dfy ===
/**
  internal/handlers/auth_handler.go: Login, Signup, Refresh and Me as pure
  transitions from (request, state, now) to (response, new state). The state
  is the two tables; `now` replaces time.Now(); `nextToken` is what
  GenerateRefreshToken returned (None for its error).
*/
module AuthHandler {
  import opened Wrappers
  import opened Models
  import opened Http
  import opened Crypto
  import Utils
  import UserRepo
  import RefreshTokenRepo

  /** 7 days, in seconds: a refresh token's lifetime. */
  const RefreshTokenLifetime: int := 7 * 24 * 60 * 60

  const InvalidRequest: string := "invalid request"
  const InvalidUsername: string := "invalid username"
  const InvalidPassword: string := "invalid password"
  const CannotGenerateRefreshToken: string := "could not generate refresh token"
  const CannotSaveRefreshToken: string := "could not save refresh token"
  const CannotHashPassword: string := "could not hash password"
  const UserCreated: string := "successfully created user"
  const InvalidRefreshToken: string := "invalid or expired refresh token"
  const Unauthorized: string := "unauthorized"

  datatype State = State(users: UserRepo.UserStore, tokens: RefreshTokenRepo.Store)

  /**
    What the handlers draw on besides the tables: the crypto oracles, the
    validator's `email` rule, and JWT_SECRET as read when the request runs.
  */
  datatype Env = Env(suite: Suite, isEmail: string -> bool, secret: string)

  datatype Outcome = Outcome(response: Response, state: State)

  function FreshSet(nextToken: Option<string>): set<string> {
    if nextToken.Some? then {nextToken.value} else {}
  }

  // ---------------------------------------------------------------------------
  // Login
  // ---------------------------------------------------------------------------

  /** A bound, valid login body naming a registered user whose stored digest accepts the password. */
  predicate CredentialsAccepted(env: Env, st: State, body: Option<LoginRequest>) {
    && body.Some? && LoginValid(body.value)
    && body.value.username in st.users.rows
    && env.suite.matches(st.users.rows[body.value.username].password, body.value.password)
  }

  /**
    Login: bind and validate the body, look the user up, compare the
    password with the stored digest, issue an access token and a refresh
    token, and save the refresh token for 7 days.
  */
  function Login(env: Env, st: State, body: Option<LoginRequest>, now: int, nextToken: Option<string>): (out: Outcome)
    ensures out.state.users == st.users
    ensures out.response.status != StatusOK ==> out.state == st
    ensures body.None? ==> out.response == Response(StatusBadRequest, Error(InvalidRequest))
    ensures body.Some? && !LoginValid(body.value) ==>
              out.response == Response(StatusBadRequest, Rejected(ValidateLogin(body.value)))
    ensures body.Some? && LoginValid(body.value) && body.value.username !in st.users.rows ==>
              out.response == Response(StatusUnauthorized, Error(InvalidUsername))
    ensures body.Some? && LoginValid(body.value) && body.value.username in st.users.rows
            && !env.suite.matches(st.users.rows[body.value.username].password, body.value.password) ==>
              out.response == Response(StatusUnauthorized, Error(InvalidPassword))
    ensures out.response.status == StatusOK <==>
              && body.Some? && LoginValid(body.value)
              && body.value.username in st.users.rows
              && env.suite.matches(st.users.rows[body.value.username].password, body.value.password)
              && env.secret != ""
              && nextToken.Some? && nextToken.value !in st.tokens
    ensures CredentialsAccepted(env, st, body) && env.secret == "" ==>
              out.response == Response(StatusInternalServerError, NoBody)
    ensures CredentialsAccepted(env, st, body) && env.secret != "" && nextToken.None? ==>
              out.response == Response(StatusInternalServerError, Error(CannotGenerateRefreshToken))
    ensures CredentialsAccepted(env, st, body) && env.secret != "" && nextToken.Some? && nextToken.value in st.tokens ==>
              out.response == Response(StatusInternalServerError, Error(CannotSaveRefreshToken))
    ensures out.response.status == StatusOK ==>
              var owner := st.users.rows[body.value.username].username;
              && out.response.body == Tokens(Utils.GenerateJwt(env.suite, env.secret, owner, now).value, nextToken.value)
              && out.state.tokens.Keys == st.tokens.Keys + {nextToken.value}
              && out.state.tokens[nextToken.value] == RefreshTokenRepo.Grant(owner, now + RefreshTokenLifetime)
              && (forall t :: t in st.tokens ==> out.state.tokens[t] == st.tokens[t])
  {
    match body
    case None => Outcome(Response(StatusBadRequest, Error(InvalidRequest)), st)
    case Some(req) =>
      var errs := ValidateLogin(req);
      if errs != [] then Outcome(Response(StatusBadRequest, Rejected(errs)), st)
      else
        match UserRepo.GetUserByUsername(st.users, req.username)
        case Err(_) => Outcome(Response(StatusUnauthorized, Error(InvalidUsername)), st)
        case Ok(user) =>
          if !env.suite.matches(user.password, req.password) then
            Outcome(Response(StatusUnauthorized, Error(InvalidPassword)), st)
          else
            match Utils.GenerateJwt(env.suite, env.secret, user.username, now)
            // getJWTSecret panicked; gin.Recovery answers 500 without a body
            case Err(_) => Outcome(Response(StatusInternalServerError, NoBody), st)
            case Ok(token) =>
              match nextToken
              case None => Outcome(Response(StatusInternalServerError, Error(CannotGenerateRefreshToken)), st)
              case Some(rt) =>
                match RefreshTokenRepo.Save(st.tokens, rt, user.username, now + RefreshTokenLifetime)
                case Err(_) => Outcome(Response(StatusInternalServerError, Error(CannotSaveRefreshToken)), st)
                case Ok(tokens) => Outcome(Response(StatusOK, Tokens(token, rt)), State(st.users, tokens))
  }

  // ---------------------------------------------------------------------------
  // Signup
  // ---------------------------------------------------------------------------

  /**
    Signup: bind and validate the body, hash the password, insert the user
    with the digest as its password, and answer 201 with a message only.
  */
  function Signup(env: Env, st: State, body: Option<SignupRequest>): (out: Outcome)
    ensures out.state.tokens == st.tokens
    ensures out.response.status != StatusCreated ==> out.state == st
    ensures body.None? ==> out.response == Response(StatusBadRequest, Error(InvalidRequest))
    ensures body.Some? && !SignupValid(body.value, env.isEmail) ==>
              out.response == Response(StatusBadRequest, Rejected(ValidateSignup(body.value, env.isEmail)))
    ensures body.Some? && SignupValid(body.value, env.isEmail) && env.suite.hash(body.value.password).None? ==>
              out.response == Response(StatusInternalServerError, Error(CannotHashPassword))
    ensures body.Some? && SignupValid(body.value, env.isEmail) && env.suite.hash(body.value.password).Some?
            && (body.value.username in st.users.rows || UserRepo.EmailTaken(st.users, body.value.email)) ==>
              out.response == Response(StatusInternalServerError, Error(UserRepo.Conflict))
    ensures out.response.status == StatusCreated <==>
              && body.Some? && SignupValid(body.value, env.isEmail)
              && env.suite.hash(body.value.password).Some?
              && body.value.username !in st.users.rows
              && !UserRepo.EmailTaken(st.users, body.value.email)
    ensures out.response.status == StatusCreated ==>
              var req := body.value;
              && out.response.body == Message(UserCreated)
              && out.state.users.rows.Keys == st.users.rows.Keys + {req.username}
              && out.state.users.rows[req.username].username == req.username
              && out.state.users.rows[req.username].email == req.email
              && out.state.users.rows[req.username].password == env.suite.hash(req.password).value
              && (forall n :: n in st.users.rows ==> out.state.users.rows[n] == st.users.rows[n])
    ensures out.response.status == StatusCreated && DigestHides(env.suite) ==>
              out.state.users.rows[body.value.username].password != body.value.password
  {
    match body
    case None => Outcome(Response(StatusBadRequest, Error(InvalidRequest)), st)
    case Some(req) =>
      var errs := ValidateSignup(req, env.isEmail);
      if errs != [] then Outcome(Response(StatusBadRequest, Rejected(errs)), st)
      else
        match Utils.HashPassword(env.suite, req.password)
        case Err(_) => Outcome(Response(StatusInternalServerError, Error(CannotHashPassword)), st)
        case Ok(digest) =>
          var created := UserRepo.CreateUser(st.users, User(0, req.username, req.email, digest));
          if created.err.Some? then Outcome(Response(StatusInternalServerError, Error(created.err.value)), st)
          else Outcome(Response(StatusCreated, Message(UserCreated)), State(created.store, st.tokens))
  }

  // ---------------------------------------------------------------------------
  // Refresh
  // ---------------------------------------------------------------------------

  /** The refresh token named in the body, when binding accepts the body. */
  predicate Presented(body: Option<RefreshTokenRequest>) {
    body.Some? && RefreshBindable(body.value)
  }

  /** A stored token whose expiry is not before `now`. */
  predicate Redeemable(tokens: RefreshTokenRepo.Store, t: string, now: int) {
    t in tokens && !(tokens[t].expiresAt < now)
  }

  /**
    Refresh: bind the body, look the token up, reject it when absent or
    expired, delete it, issue a new access token and a new refresh token
    for the same owner, and save the new one for 7 days. Errors of Delete
    and Save are ignored, as in the source.
  */
  function Refresh(env: Env, st: State, body: Option<RefreshTokenRequest>, now: int, nextToken: Option<string>): (out: Outcome)
    ensures out.state.users == st.users
    ensures !Presented(body) ==> out == Outcome(Response(StatusBadRequest, Error(InvalidRequest)), st)
    ensures Presented(body) && !Redeemable(st.tokens, body.value.refreshToken, now) ==>
              out == Outcome(Response(StatusUnauthorized, Error(InvalidRefreshToken)), st)
    ensures Presented(body) && Redeemable(st.tokens, body.value.refreshToken, now) ==>
              var t := body.value.refreshToken;
              && (nextToken.Some? ==> nextToken.value != t) ==> t !in out.state.tokens
    ensures Presented(body) && Redeemable(st.tokens, body.value.refreshToken, now) ==>
              var t := body.value.refreshToken;
              && out.state.tokens.Keys <= (st.tokens.Keys - {t}) + FreshSet(nextToken)
              && (forall u :: u in st.tokens && u != t ==> u in out.state.tokens && out.state.tokens[u] == st.tokens[u])
    ensures Presented(body) && Redeemable(st.tokens, body.value.refreshToken, now) && env.secret == "" ==>
              out == Outcome(Response(StatusInternalServerError, NoBody),
                             State(st.users, st.tokens - {body.value.refreshToken}))
    ensures Presented(body) && Redeemable(st.tokens, body.value.refreshToken, now) && env.secret != "" && nextToken.None? ==>
              out == Outcome(Response(StatusInternalServerError, Error(CannotGenerateRefreshToken)),
                             State(st.users, st.tokens - {body.value.refreshToken}))
    ensures out.response.status == StatusOK <==>
              Presented(body) && Redeemable(st.tokens, body.value.refreshToken, now)
              && env.secret != "" && nextToken.Some?
    ensures out.response.status == StatusOK ==>
              var t := body.value.refreshToken;
              var owner := st.tokens[t].username;
              && out.response.body == Tokens(Utils.GenerateJwt(env.suite, env.secret, owner, now).value, nextToken.value)
              && (nextToken.value !in st.tokens || nextToken.value == t ==>
                    && nextToken.value in out.state.tokens
                    && out.state.tokens[nextToken.value] == RefreshTokenRepo.Grant(owner, now + RefreshTokenLifetime))
  {
    if body.None? || !RefreshBindable(body.value) then
      Outcome(Response(StatusBadRequest, Error(InvalidRequest)), st)
    else
      var t := body.value.refreshToken;
      match RefreshTokenRepo.Get(st.tokens, t)
      case Err(_) => Outcome(Response(StatusUnauthorized, Error(InvalidRefreshToken)), st)
      case Ok(rt) =>
        if rt.expiresAt < now then Outcome(Response(StatusUnauthorized, Error(InvalidRefreshToken)), st)
        else
          var rotated := RefreshTokenRepo.Delete(st.tokens, t);
          match Utils.GenerateJwt(env.suite, env.secret, rt.username, now)
          case Err(_) => Outcome(Response(StatusInternalServerError, NoBody), State(st.users, rotated))
          case Ok(token) =>
            match nextToken
            case None =>
              Outcome(Response(StatusInternalServerError, Error(CannotGenerateRefreshToken)), State(st.users, rotated))
            case Some(next) =>
              var saved := RefreshTokenRepo.Save(rotated, next, rt.username, now + RefreshTokenLifetime);
              var tokens := if saved.Ok? then saved.value else rotated;
              Outcome(Response(StatusOK, Tokens(token, next)), State(st.users, tokens))
  }

  // ---------------------------------------------------------------------------
  // Me
  // ---------------------------------------------------------------------------

  /**
    Me: the "username" the request context holds, looked up and returned
    with its password cleared, which `omitempty` then drops from the JSON.
  */
  function Me(users: UserRepo.UserStore, ctx: Utils.Context): (r: Response)
    ensures ctx.username.None? ==> r == Response(StatusUnauthorized, Error(Unauthorized))
    ensures ctx.username.Some? && ctx.username.value !in users.rows ==>
              r == Response(StatusUnauthorized, Error(UserRepo.NotFound))
    ensures r.status == StatusOK <==> ctx.username.Some? && ctx.username.value in users.rows
    ensures r.status == StatusOK ==>
              && r.body == Json(MeJson(MeOf(users.rows[ctx.username.value])))
              && "password" !in Keys(r.body.members)
  {
    match ctx.username
    case None => Response(StatusUnauthorized, Error(Unauthorized))
    case Some(name) =>
      match UserRepo.GetUserByUsername(users, name)
      case Err(e) => Response(StatusUnauthorized, Error(e))
      case Ok(user) =>
        var shown := user.(password := "");
        ClearedUserIsMe(shown);
        Response(StatusOK, Json(UserJson(shown)))
  }
}

=== FILE: config.dfy ===
/** internal/config/config.go: the process configuration read from the environment. */
module Config {
  import opened Wrappers

  /** The three environment variables LoadConfig reads; "" stands for unset. */
  datatype Environment = Environment(jwtSecret: string, port: string, dbPath: string)

  datatype AppConfig = AppConfig(jwtSecret: string, port: string, dbPath: string)

  const DefaultPort: string := "8080"
  const DefaultDbPath: string := "chinook.db"

  /**
    LoadConfig: an empty JWT_SECRET is fatal (log.Fatal ends the process, so
    no config exists); an empty PORT or DB_PATH takes its default; every
    non-empty value is carried over as it is.
  */
  function LoadConfig(env: Environment): (r: Result<AppConfig>)
    ensures r.Err? <==> env.jwtSecret == ""
    ensures r.Ok? ==> r.value.jwtSecret == env.jwtSecret
    ensures r.Ok? ==> r.value.port == (if env.port == "" then DefaultPort else env.port)
    ensures r.Ok? ==> r.value.dbPath == (if env.dbPath == "" then DefaultDbPath else env.dbPath)
  {
    if env.jwtSecret == "" then Err("JWT_SECRET is required")
    else
      Ok(AppConfig(
        env.jwtSecret,
        if env.port == "" then DefaultPort else env.port,
        if env.dbPath == "" then DefaultDbPath else env.dbPath))
  }

  /** Every field of a loaded configuration is set. */
  predicate Complete(c: AppConfig) {
    c.jwtSecret != "" && c.port != "" && c.dbPath != ""
  }

  /** A loaded config is complete, and loading it again from its own values changes nothing. */
  lemma LoadConfigFixpoint(env: Environment)
    requires LoadConfig(env).Ok?
    ensures Complete(LoadConfig(env).value)
    ensures var c := LoadConfig(env).value;
            LoadConfig(Environment(c.jwtSecret, c.port, c.dbPath)) == Ok(c)
  {
  }
}

=== FILE: crypto.dfy ===
/**
  The foreign cryptography the auth core leans on, as uninterpreted functions:
  bcrypt (golang.org/x/crypto/bcrypt) and the golang-jwt/jwt v5 codec and
  HMAC. A `Suite` bundles them; the properties the model relies on are the
  ghost predicates below, which lemmas take as preconditions. The operations
  themselves never assume them.
*/
module Crypto {
  import opened Wrappers
  import Scan

  /** The other signing methods jwt v5 registers; a header naming anything else does not decode. */
  type NonHmacName = n: string
    | n in {"RS256", "RS384", "RS512", "PS256", "PS384", "PS512", "ES256", "ES384", "ES512", "EdDSA", "none"}
    witness "none"

  /** The `alg` header of a JWS. Only the HMAC family is accepted by the middleware. */
  datatype Alg = HS256 | HS384 | HS512 | NonHmac(name: NonHmacName)

  predicate IsHmac(a: Alg) {
    a.HS256? || a.HS384? || a.HS512?
  }

  /**
    The claim set a token carries. `username` is the custom claim GenerateJWT
    writes; `exp` and `nbf` are the registered claims of sections 4.1.4 and
    4.1.5 of RFC 7519, as NumericDate seconds.
  */
  datatype Claims = Claims(username: Option<string>, exp: Option<int>, nbf: Option<int>)

  /**
    2^53: jwt v5 decodes a NumericDate into a float64, which holds every
    integer up to this magnitude exactly and rounds larger ones.
  */
  const MaxExactSeconds: int := 0x20_0000_0000_0000

  predicate DateExact(d: Option<int>) {
    d.Some? ==> -MaxExactSeconds <= d.value <= MaxExactSeconds
  }

  /** The claims' dates survive encoding and decoding unchanged. */
  predicate DatesExact(c: Claims) {
    DateExact(c.exp) && DateExact(c.nbf)
  }

  /** A decoded compact JWS: header algorithm, payload claims and signature. */
  datatype Jwt = Jwt(alg: Alg, claims: Claims, signature: string)

  datatype Suite = Suite(
    hash: string -> Option<string>,      // bcrypt.GenerateFromPassword at DefaultCost; None = its error
    matches: (string, string) -> bool,   // bcrypt.CompareHashAndPassword(digest, plain) == nil
    encode: Jwt -> string,               // compact serialisation (section 7.1 of RFC 7515)
    decode: string -> Option<Jwt>,       // parse without verifying; None = malformed
    mac: (Alg, Claims, string) -> string // HMAC of the decoded algorithm and claims under a key
  )

  /**
    Idealised bcrypt: a digest accepts exactly the password it was made from.
    Real bcrypt keys Blowfish with the password and a NUL byte, repeated to
    fill 72 bytes, so every password whose repetition gives the same 72 bytes
    is accepted too: a digest of "secret1" also accepts "secret1\0secret1",
    and a digest of a 72-byte password accepts any extension of it.
  */
  ghost predicate HashSound(s: Suite) {
    forall p, q :: s.hash(p).Some? ==> (s.matches(s.hash(p).value, q) <==> p == q)
  }

  /**
    A digest is never the password itself. bcrypt's output is a salted
    "$2a$..." string, which in practice never equals the password it hides.
  */
  ghost predicate DigestHides(s: Suite) {
    forall p :: s.hash(p).Some? ==> s.hash(p).value != p
  }

  /**
    The compact serialisation decodes back to what was encoded: always its
    algorithm and signature, and its claims whenever their dates are exact.
    Every header `encode` writes names a registered method, so it decodes.
  */
  ghost predicate CodecSound(s: Suite) {
    forall j :: && s.decode(s.encode(j)).Some?
                && s.decode(s.encode(j)).value.alg == j.alg
                && s.decode(s.encode(j)).value.signature == j.signature
                && (DatesExact(j.claims) ==> s.decode(s.encode(j)).value.claims == j.claims)
  }

  /** A compact JWS is base64url segments joined by dots: a non-empty word without spaces. */
  ghost predicate TokensAreWords(s: Suite) {
    forall j :: Scan.IsWord(s.encode(j))
  }

  /**
    Idealised HMAC: the same header and claims under two keys give two
    signatures. Real HMAC pads short keys with zero bytes, so a key and the
    same key followed by zero bytes give the same signature.
  */
  ghost predicate MacBindsKey(s: Suite) {
    forall a, c, k1, k2 :: s.mac(a, c, k1) == s.mac(a, c, k2) ==> k1 == k2
  }

  /** What the middleware lemmas need of the JWT library: a sound codec writing space-free tokens. */
  ghost predicate JwtSound(s: Suite) {
    CodecSound(s) && TokensAreWords(s)
  }

  /** token.SignedString(key): encode header, claims and their MAC under `key`. */
  function Sign(s: Suite, alg: Alg, claims: Claims, key: string): (token: string)
    ensures CodecSound(s) ==>
              && s.decode(token).Some?
              && s.decode(token).value.alg == alg
              && s.decode(token).value.signature == s.mac(alg, claims, key)
    ensures CodecSound(s) && DatesExact(claims) ==> s.decode(token) == Some(Jwt(alg, claims, s.mac(alg, claims, key)))
  {
    s.encode(Jwt(alg, claims, s.mac(alg, claims, key)))
  }

  /**
    The default claims validation of jwt v5: `exp`, when present, must lie
    strictly after `now`; `nbf`, when present, must not lie after `now`.
    `iat` is not checked by default.
  */
  predicate ClaimsValid(c: Claims, now: int) {
    (c.exp.Some? ==> now < c.exp.value) && (c.nbf.Some? ==> c.nbf.value <= now)
  }

  /** What the key function handed to jwt.Parse returns. */
  datatype KeyLookup = Key(key: string) | Refused(reason: string) | Panics

  datatype ParseError = Malformed | Unverifiable(reason: string) | SignatureInvalid | InvalidClaims

  /** Outcome of jwt.Parse: a valid token's claims, an error, or a panic escaping the key function. */
  datatype Parsed = Valid(claims: Claims) | Invalid(error: ParseError) | Panicked

  /**
    jwt.Parse in v5's order: decode, ask the key function, verify the
    signature with the token's own algorithm, validate the claims.
  */
  function Parse(s: Suite, token: string, keyFunc: Alg -> KeyLookup, now: int): (r: Parsed)
    ensures r.Valid? <==>
              && s.decode(token).Some?
              && keyFunc(s.decode(token).value.alg).Key?
              && s.decode(token).value.signature
                 == s.mac(s.decode(token).value.alg, s.decode(token).value.claims,
                          keyFunc(s.decode(token).value.alg).key)
              && ClaimsValid(s.decode(token).value.claims, now)
    ensures r.Valid? ==> r.claims == s.decode(token).value.claims
    ensures r.Panicked? <==> s.decode(token).Some? && keyFunc(s.decode(token).value.alg).Panics?
  {
    match s.decode(token)
    case None => Invalid(Malformed)
    case Some(j) =>
      match keyFunc(j.alg)
      case Panics => Panicked
      case Refused(why) => Invalid(Unverifiable(why))
      case Key(k) =>
        if j.signature != s.mac(j.alg, j.claims, k) then Invalid(SignatureInvalid)
        else if !ClaimsValid(j.claims, now) then Invalid(InvalidClaims)
        else Valid(j.claims)
  }

  /** Expiry (section 4.1.4 of RFC 7519): a token signed for `exp` verifies exactly before `exp`. */
  lemma ParseSigned(s: Suite, alg: Alg, claims: Claims, key: string, keyFunc: Alg -> KeyLookup, now: int)
    requires CodecSound(s) && DatesExact(claims)
    requires keyFunc(alg) == Key(key)
    ensures Parse(s, Sign(s, alg, claims, key), keyFunc, now) == (if ClaimsValid(claims, now) then Valid(claims) else Invalid(InvalidClaims))
  {
  }

  /** A token signed with one key never verifies under a different one. */
  lemma ParseWrongKey(s: Suite, alg: Alg, claims: Claims, key: string, keyFunc: Alg -> KeyLookup, now: int)
    requires CodecSound(s) && MacBindsKey(s) && DatesExact(claims)
    requires keyFunc(alg).Key? && keyFunc(alg).key != key
    ensures Parse(s, Sign(s, alg, claims, key), keyFunc, now) == Invalid(SignatureInvalid)
  {
  }
}

=== FILE: http.dfy ===
/** The HTTP replies the handlers write: a status code and a JSON body. */
module Http {
  import opened Models

  const StatusOK: int := 200
  const StatusCreated: int := 201
  const StatusBadRequest: int := 400
  const StatusUnauthorized: int := 401
  const StatusNotFound: int := 404
  const StatusInternalServerError: int := 500

  datatype Body =
    | Error(message: string)                      // {"error": message}
    | Rejected(errors: seq<FieldError>)           // {"error": <validator report>}
    | Tokens(token: string, refreshToken: string) // {"token": ..., "refresh_token": ...}
    | Message(message: string)                    // {"message": message}
    | Json(members: JsonObject)                   // a serialised record
    | NoBody                                      // gin.Recovery after a panic

  datatype Response = Response(status: int, body: Body)
}

=== FILE: models.dfy ===
/**
  internal/models/user.go: the user record, the auth request bodies with
  their validation tags, and the password-free `Me` view.
*/
module Models {

  datatype User = User(id: int, username: string, email: string, password: string)

  datatype LoginRequest = LoginRequest(username: string, password: string)

  datatype SignupRequest = SignupRequest(username: string, email: string, password: string)

  /** Its only field is tagged `binding:"required"`: checked when the JSON body is bound. */
  datatype RefreshTokenRequest = RefreshTokenRequest(refreshToken: string)

  datatype Me = Me(id: int, username: string, email: string)

  // ---------------------------------------------------------------------------
  // Validation (go-playground/validator `validate` tags)
  // ---------------------------------------------------------------------------

  /** One failed field: its struct field name and the first tag it failed. */
  datatype FieldError = FieldError(field: string, tag: string)

  const UsernameMinLength: nat := 3
  const PasswordMinLength: nat := 6

  /**
    The first failing tag of a `required,min=n` string field: "required"
    rejects the zero value "", "min" counts runes.
  */
  function CheckMin(field: string, value: string, n: nat): (errs: seq<FieldError>)
    requires n > 0
    ensures errs == [] <==> |value| >= n
    ensures errs != [] ==> errs == [FieldError(field, if value == "" then "required" else "min")]
  {
    if value == "" then [FieldError(field, "required")]
    else if |value| < n then [FieldError(field, "min")]
    else []
  }

  /** `required,email`, with well-formedness left to the oracle `isEmail`. */
  function CheckEmail(field: string, value: string, isEmail: string -> bool): (errs: seq<FieldError>)
    ensures errs == [] <==> value != "" && isEmail(value)
  {
    if value == "" then [FieldError(field, "required")]
    else if !isEmail(value) then [FieldError(field, "email")]
    else []
  }

  /** validate.Struct on a LoginRequest: every failing field, in declaration order. */
  function ValidateLogin(r: LoginRequest): (errs: seq<FieldError>)
    ensures errs == [] <==> LoginValid(r)
    ensures forall k :: 0 <= k < |errs| ==> errs[k].field in {"Username", "Password"}
  {
    CheckMin("Username", r.username, UsernameMinLength) + CheckMin("Password", r.password, PasswordMinLength)
  }

  /** validate.Struct on a SignupRequest. */
  function ValidateSignup(r: SignupRequest, isEmail: string -> bool): (errs: seq<FieldError>)
    ensures errs == [] <==> SignupValid(r, isEmail)
    ensures forall k :: 0 <= k < |errs| ==> errs[k].field in {"Username", "Email", "Password"}
  {
    CheckMin("Username", r.username, UsernameMinLength)
    + CheckEmail("Email", r.email, isEmail)
    + CheckMin("Password", r.password, PasswordMinLength)
  }

  /** The acceptance rule of LoginRequest, stated directly on its fields. */
  predicate LoginValid(r: LoginRequest) {
    |r.username| >= UsernameMinLength && |r.password| >= PasswordMinLength
  }

  predicate SignupValid(r: SignupRequest, isEmail: string -> bool) {
    |r.username| >= UsernameMinLength && r.email != "" && isEmail(r.email) && |r.password| >= PasswordMinLength
  }

  /**
    gin's binding check of RefreshTokenRequest: the `binding:"required"` tag
    applies the validator's own `required` rule, so the body binds exactly
    when that rule passes, and the only way to fail is the empty token.
  */
  predicate RefreshBindable(r: RefreshTokenRequest): (ok: bool)
    ensures ok <==> CheckMin("RefreshToken", r.refreshToken, 1) == []
    ensures !ok ==> CheckMin("RefreshToken", r.refreshToken, 1) == [FieldError("RefreshToken", "required")]
  {
    r.refreshToken != ""
  }

  // ---------------------------------------------------------------------------
  // JSON views
  // ---------------------------------------------------------------------------

  datatype JsonValue = JNumber(n: int) | JString(s: string)

  /** A JSON object as its members in field order. */
  type JsonObject = seq<(string, JsonValue)>

  function Keys(o: JsonObject): (ks: seq<string>)
    ensures |ks| == |o|
    ensures forall k :: 0 <= k < |o| ==> ks[k] == o[k].0
  {
    if o == [] then [] else [o[0].0] + Keys(o[1..])
  }

  /** encoding/json of a User: `password` carries `omitempty`. */
  function UserJson(u: User): (o: JsonObject)
    ensures "password" in Keys(o) <==> u.password != ""
    ensures |o| >= 3 && Keys(o)[..3] == ["id", "username", "email"]
  {
    var o := [("id", JNumber(u.id)), ("username", JString(u.username)), ("email", JString(u.email))]
             + (if u.password == "" then [] else [("password", JString(u.password))]);
    assert Keys(o)[..3] == ["id", "username", "email"];
    assert u.password != "" ==> Keys(o)[3] == "password";
    assert u.password == "" ==> Keys(o) == ["id", "username", "email"];
    o
  }

  function MeJson(m: Me): JsonObject {
    [("id", JNumber(m.id)), ("username", JString(m.username)), ("email", JString(m.email))]
  }

  function MeOf(u: User): Me {
    Me(u.id, u.username, u.email)
  }

  /** A user whose password has been cleared serialises exactly as its Me view. */
  lemma ClearedUserIsMe(u: User)
    requires u.password == ""
    ensures UserJson(u) == MeJson(MeOf(u))
    ensures "password" !in Keys(UserJson(u))
  {
  }
}

=== FILE: playlist_track_handler.dfy ===
/**
  internal/handlers/playlist_track_handler.go: the status decision of
  GetPlaylistTrack. The repository query is the parameter `fetch`, from a
  playlist id to its tracks or an error; tracks are left abstract (`T`).
*/
module PlaylistTrackHandler {
  import opened Wrappers
  import opened Http
  import Scan
  import Utils

  const InvalidPlaylistId: string := "Invalid playlist ID"
  const NoTracks: string := "No tracks found for this playlist"

  /** The reply: an aborted request with status and error, or 200 with the tracks. */
  datatype TrackReply<T> = Failed(status: int, message: string) | Listed(tracks: seq<T>)

  /**
    GetPlaylistTrack: an id that ParseInt reads as 0 or less is a 400
    before any query; a query error is a 500 carrying the error text; an
    empty result is a 404; otherwise 200 with exactly the tracks found.
  */
  function GetPlaylistTrack<T(==)>(idParam: string, fetch: int -> Result<seq<T>>): (r: TrackReply<T>)
    ensures Utils.ParseInt(idParam) <= 0 ==> r == Failed(StatusBadRequest, InvalidPlaylistId)
    ensures Utils.ParseInt(idParam) > 0 && fetch(Utils.ParseInt(idParam)).Err? ==>
              r == Failed(StatusInternalServerError, fetch(Utils.ParseInt(idParam)).error)
    ensures Utils.ParseInt(idParam) > 0 && fetch(Utils.ParseInt(idParam)) == Ok([]) ==>
              r == Failed(StatusNotFound, NoTracks)
    ensures r.Listed? <==>
              Utils.ParseInt(idParam) > 0 && fetch(Utils.ParseInt(idParam)).Ok?
              && |fetch(Utils.ParseInt(idParam)).value| > 0
    ensures r.Listed? ==> r.tracks == fetch(Utils.ParseInt(idParam)).value
  {
    var id := Utils.ParseInt(idParam);
    if id <= 0 then Failed(StatusBadRequest, InvalidPlaylistId)
    else
      match fetch(id)
      case Err(e) => Failed(StatusInternalServerError, e)
      case Ok(tracks) =>
        if |tracks| == 0 then Failed(StatusNotFound, NoTracks)
        else Listed(tracks)
  }

  /** A rejected id never reaches the repository: the reply is the same whatever it would answer. */
  lemma RejectedIdSkipsRepository<T>(idParam: string, f: int -> Result<seq<T>>, g: int -> Result<seq<T>>)
    requires Utils.ParseInt(idParam) <= 0
    ensures GetPlaylistTrack(idParam, f) == GetPlaylistTrack(idParam, g)
  {
  }

  /** The repository is asked about the parsed id and nothing else. */
  lemma OnlyParsedIdQueried<T>(idParam: string, f: int -> Result<seq<T>>, g: int -> Result<seq<T>>)
    requires f(Utils.ParseInt(idParam)) == g(Utils.ParseInt(idParam))
    ensures GetPlaylistTrack(idParam, f) == GetPlaylistTrack(idParam, g)
  {
  }

  /** A path id that does not open with an integer is a 400. */
  lemma NonNumericIdRejected<T>(idParam: string, fetch: int -> Result<seq<T>>)
    requires !Utils.BeginsWithInteger(idParam)
    ensures GetPlaylistTrack(idParam, fetch) == Failed(StatusBadRequest, InvalidPlaylistId)
  {
    Utils.ParseIntNoInteger(idParam);
  }

  /** Every decimal id of a playlist that has tracks is answered 200 with those tracks. */
  lemma DecimalIdListed<T>(id: int, fetch: int -> Result<seq<T>>)
    requires 0 < id <= Scan.MaxInt64
    requires fetch(id).Ok? && |fetch(id).value| > 0
    ensures GetPlaylistTrack(Scan.Itoa(id), fetch) == Listed(fetch(id).value)
  {
    Utils.ParseIntOfItoa([], id, []);
    assert [] + Scan.Itoa(id) + [] == Scan.Itoa(id);
  }

  /** A path id with a leading zero is read in octal: "/playlists/010/tracks" lists playlist 8. */
  lemma OctalIdListed<T>(id: int, fetch: int -> Result<seq<T>>)
    requires 0 < id <= Scan.MaxInt64
    requires fetch(id).Ok? && |fetch(id).value| > 0
    ensures GetPlaylistTrack("0" + Scan.DigitsIn(id, 8), fetch) == Listed(fetch(id).value)
  {
    Utils.ParseIntOfOctal(id, []);
    assert "0" + Scan.DigitsIn(id, 8) + [] == "0" + Scan.DigitsIn(id, 8);
  }
}

=== FILE: protected_routes.dfy ===
/**
  The protected `/auth/me` route of internal/routes/routes.go: in production
  AuthMiddlewareJWT runs first and then the Me handler reads "username" from
  the request context. The middleware never stores that value, so the route
  as written cannot answer 200; `AuthenticateWithIdentity` is the middleware
  the Me handler evidently expects, and `ServeMeWithIdentity` the route over it.
*/
module ProtectedRoutes {
  import opened Wrappers
  import opened Models
  import opened Http
  import opened Crypto
  import Scan
  import Utils
  import UserRepo
  import AuthHandler

  /** The middleware's verdict turned into the reply the client sees, Me running on Next. */
  function Dispatch(v: Utils.Verdict, users: UserRepo.UserStore): Response {
    match v
    case Abort(status, message) => Response(status, Error(message))
    case Crash => Response(StatusInternalServerError, NoBody)
    case Next(ctx) => AuthHandler.Me(users, ctx)
  }

  /** GET /auth/me as written: a fresh request context, AuthMiddlewareJWT, then Me. */
  function ServeMe(env: AuthHandler.Env, users: UserRepo.UserStore, header: string, now: int): (r: Response)
    ensures r.status != StatusOK
  {
    Dispatch(Utils.AuthMiddleware(env.suite, env.secret, header, Utils.Context(None), now), users)
  }

  /**
    The discrepancy: a registered user presenting a valid access token of
    their own is still turned away with 401 "unauthorized".
  */
  lemma ServeMeRejectsValidToken(env: AuthHandler.Env, users: UserRepo.UserStore, name: string, issued: int, at: int)
    requires JwtSound(env.suite)
    requires env.secret != ""
    requires name in users.rows
    requires DateExact(Some(issued + Utils.AccessTokenLifetime))
    requires at < issued + Utils.AccessTokenLifetime
    ensures var token := Utils.GenerateJwt(env.suite, env.secret, name, issued).value;
            ServeMe(env, users, Utils.BearerHeader(token), at)
            == Response(StatusUnauthorized, Error(AuthHandler.Unauthorized))
  {
    Utils.GeneratedTokenAccepted(env.suite, env.secret, name, issued, Utils.Context(None), at);
  }

  /**
    The middleware with the step it lacks: on a valid token it stores the
    token's `username` claim in the context before continuing. Every other
    verdict is the one AuthMiddlewareJWT gives.
  */
  function AuthenticateWithIdentity(s: Suite, secret: string, header: string, ctx: Utils.Context, now: int): (v: Utils.Verdict)
    ensures v.Next? <==> Utils.AuthMiddleware(s, secret, header, ctx, now).Next?
    ensures !v.Next? ==> v == Utils.AuthMiddleware(s, secret, header, ctx, now)
    ensures v.Next? ==> v.ctx.username == s.decode(Scan.BearerToken(header)).value.claims.username
  {
    var token := Scan.BearerToken(header);
    if token == [] then Utils.Abort(StatusUnauthorized, Utils.MissingToken)
    else
      match Parse(s, token, Utils.KeyFunc(secret), now)
      case Panicked => Utils.Crash
      case Invalid(_) => Utils.Abort(StatusUnauthorized, Utils.InvalidToken)
      case Valid(claims) => Utils.Next(ctx.(username := claims.username))
  }

  /** GET /auth/me over the corrected middleware. */
  function ServeMeWithIdentity(env: AuthHandler.Env, users: UserRepo.UserStore, header: string, now: int): Response {
    Dispatch(AuthenticateWithIdentity(env.suite, env.secret, header, Utils.Context(None), now), users)
  }

  /**
    With the identity stored, a user's own unexpired access token yields 200
    and their Me view; once the token has expired the answer is 401.
  */
  lemma ServeMeWithIdentityAnswers(env: AuthHandler.Env, users: UserRepo.UserStore, name: string, issued: int, at: int)
    requires JwtSound(env.suite)
    requires env.secret != ""
    requires name in users.rows
    requires DateExact(Some(issued + Utils.AccessTokenLifetime))
    ensures var token := Utils.GenerateJwt(env.suite, env.secret, name, issued).value;
            ServeMeWithIdentity(env, users, Utils.BearerHeader(token), at)
            == if at < issued + Utils.AccessTokenLifetime
               then Response(StatusOK, Json(MeJson(MeOf(users.rows[name]))))
               else Response(StatusUnauthorized, Error(Utils.InvalidToken))
  {
    var token := Utils.GenerateJwt(env.suite, env.secret, name, issued).value;
    Utils.GeneratedTokenAccepted(env.suite, env.secret, name, issued, Utils.Context(None), at);
    if at < issued + Utils.AccessTokenLifetime {
      Scan.BearerTokenOfHeader(" ", token, []);
      assert Utils.BearerHeader(token) == Scan.BearerPrefix + " " + token + [];
      assert Scan.BearerToken(Utils.BearerHeader(token)) == token;
    }
  }
}

=== FILE: refresh_token_repo.dfy ===
/**
  internal/repositories/refresh_token_repo.go: the Refresh_Tokens table as a
  finite map from token value to its owner and expiry. `Save` is a plain
  INSERT on the unique token column, `Get` a lookup, `Delete` a removal.
*/
module RefreshTokenRepo {
  import opened Wrappers

  /** One stored row, minus its key. Times are integer seconds. */
  datatype Grant = Grant(username: string, expiresAt: int)

  type Store = map<string, Grant>

  /** The row as `Get` returns it. */
  datatype RefreshToken = RefreshToken(token: string, username: string, expiresAt: int)

  const DuplicateToken: string := "UNIQUE constraint failed: Refresh_Tokens.token"
  const NoRows: string := "sql: no rows in result set"

  /** INSERT: adds the row when the token is new; an existing row is never overwritten. */
  function Save(s: Store, token: string, username: string, expiresAt: int): (r: Result<Store>)
    ensures r.Ok? <==> token !in s
    ensures r.Ok? ==> r.value.Keys == s.Keys + {token}
    ensures r.Ok? ==> r.value[token] == Grant(username, expiresAt)
    ensures r.Ok? ==> forall t :: t in s ==> r.value[t] == s[t]
  {
    if token in s then Err(DuplicateToken) else Ok(s[token := Grant(username, expiresAt)])
  }

  /** SELECT by token: the stored row, or an error when there is none. */
  function Get(s: Store, token: string): (r: Result<RefreshToken>)
    ensures r.Ok? <==> token in s
    ensures r.Ok? ==> r.value.token == token && Grant(r.value.username, r.value.expiresAt) == s[token]
  {
    if token in s then Ok(RefreshToken(token, s[token].username, s[token].expiresAt)) else Err(NoRows)
  }

  /** DELETE by token: removes that row if present; never an error. */
  function Delete(s: Store, token: string): (s': Store)
    ensures token !in s'
    ensures s'.Keys == s.Keys - {token}
    ensures forall t :: t in s' ==> s'[t] == s[t]
  {
    s - {token}
  }

  /** Get right after a successful Save returns the saved row. */
  lemma SaveThenGet(s: Store, token: string, username: string, expiresAt: int)
    requires token !in s
    ensures Save(s, token, username, expiresAt).Ok?
    ensures Get(Save(s, token, username, expiresAt).value, token) == Ok(RefreshToken(token, username, expiresAt))
  {
  }

  /** Saving over an existing token fails and leaves its row as it was. */
  lemma SaveNoOverwrite(s: Store, token: string, username: string, expiresAt: int)
    requires token in s
    ensures Save(s, token, username, expiresAt).Err?
  {
  }

  /** Deleting one token leaves the lookup of every other token as it was. */
  lemma DeleteOthersUnaffected(s: Store, token: string, other: string)
    requires other != token
    ensures Get(Delete(s, token), other) == Get(s, other)
    ensures Get(Delete(s, token), token).Err?
  {
  }

  /** Deleting an absent token changes nothing, so deleting twice is deleting once. */
  lemma DeleteIdempotent(s: Store, token: string)
    ensures token !in s ==> Delete(s, token) == s
    ensures Delete(Delete(s, token), token) == Delete(s, token)
  {
  }
}

=== FILE: scan.dfy ===
/**
  The two uses of Go's `fmt` scanner in internal/utils/utils.go, written out:
  `fmt.Sscanf(header, "Bearer %s", &tok)` in the JWT middleware and
  `fmt.Sscan(s, &i)` (verb %v into an int) in `ParseInt`.
  Strings are sequences of runes; `IsSpace` is the scanner's own space table.
*/
module Scan {
  import opened Wrappers

  /** The white-space table of Go's fmt scanner (not `unicode.IsSpace`). */
  predicate IsSpace(c: char) {
    ('\t' <= c <= '\r') || c == ' ' || c == '\U{0085}' || c == '\U{00A0}' || c == '\U{1680}'
    || ('\U{2000}' <= c <= '\U{200A}') || c == '\U{2028}' || c == '\U{2029}'
    || c == '\U{202F}' || c == '\U{205F}' || c == '\U{3000}'
  }

  /** A space that a blank in a scanf format may consume: any space but newline. */
  predicate IsBlank(c: char) {
    IsSpace(c) && c != '\n'
  }

  predicate AllBlank(s: string) {
    forall k :: 0 <= k < |s| ==> IsBlank(s[k])
  }

  /** What `%s` yields: a non-empty run of non-space runes. */
  predicate IsWord(s: string) {
    |s| > 0 && forall k :: 0 <= k < |s| ==> !IsSpace(s[k])
  }

  // ---------------------------------------------------------------------------
  // Index helpers
  // ---------------------------------------------------------------------------

  /** First index at or after `i` whose rune is not blank. */
  function SkipBlanks(s: string, i: nat): (j: nat)
    requires i <= |s|
    ensures i <= j <= |s|
    ensures forall k :: i <= k < j ==> IsBlank(s[k])
    ensures j == |s| || !IsBlank(s[j])
    decreases |s| - i
  {
    if i == |s| || !IsBlank(s[i]) then i else SkipBlanks(s, i + 1)
  }

  /** First index at or after `i` whose rune is a space. */
  function WordEnd(s: string, i: nat): (j: nat)
    requires i <= |s|
    ensures i <= j <= |s|
    ensures forall k :: i <= k < j ==> !IsSpace(s[k])
    ensures j == |s| || IsSpace(s[j])
    decreases |s| - i
  {
    if i == |s| || IsSpace(s[i]) then i else WordEnd(s, i + 1)
  }

  /** First index at or after `i` whose rune is not a space (newline included). */
  function SkipSpaces(s: string, i: nat): (j: nat)
    requires i <= |s|
    ensures i <= j <= |s|
    ensures forall k :: i <= k < j ==> IsSpace(s[k])
    ensures j == |s| || !IsSpace(s[j])
    decreases |s| - i
  {
    if i == |s| || !IsSpace(s[i]) then i else SkipSpaces(s, i + 1)
  }

  /** First index at or after `i` whose rune is not in `accept`. */
  function TakeWhileIn(s: string, i: nat, accept: string): (j: nat)
    requires i <= |s|
    ensures i <= j <= |s|
    ensures forall k :: i <= k < j ==> s[k] in accept
    ensures j == |s| || s[j] !in accept
    decreases |s| - i
  {
    if i == |s| || s[i] !in accept then i else TakeWhileIn(s, i + 1, accept)
  }

  // ---------------------------------------------------------------------------
  // Sscanf(header, "Bearer %s", &tok)
  // ---------------------------------------------------------------------------

  const BearerPrefix: string := "Bearer"

  /**
    The word `Sscanf(h, "Bearer %s", &tok)` stores in `tok`, or "" when the
    scan fails before assigning it. The literal "Bearer" must open the input;
    the blank in the format must meet at least one non-newline space (or the
    end of input); a newline there, or nothing after the blanks, fails; else
    `%s` takes runes up to the next space.
  */
  function BearerToken(h: string): (tok: string)
    ensures tok == [] || IsWord(tok)
    ensures (|h| < |BearerPrefix| || h[..|BearerPrefix|] != BearerPrefix) ==> tok == []
  {
    var n := |BearerPrefix|;
    if |h| < n || h[..n] != BearerPrefix then []
    else if |h| == n || !IsBlank(h[n]) then []
    else
      var i := SkipBlanks(h, n);
      if i == |h| || IsSpace(h[i]) then []
      else h[i..WordEnd(h, i)]
  }

  /** Round trip: the header "Bearer" + blanks + word + (end or a space) yields that word. */
  lemma BearerTokenOfHeader(blanks: string, word: string, rest: string)
    requires |blanks| > 0 && AllBlank(blanks)
    requires IsWord(word)
    requires rest == [] || IsSpace(rest[0])
    ensures BearerToken(BearerPrefix + blanks + word + rest) == word
  {
    var h := BearerPrefix + blanks + word + rest;
    var n := |BearerPrefix|;
    assert h[..n] == BearerPrefix;
    assert h[n] == blanks[0];
    var i := SkipBlanks(h, n);
    var w := n + |blanks|;
    assert h[w] == word[0];
    SkipBlanksStops(h, n, w);
    assert i == w;
    var e := w + |word|;
    assert forall k :: w <= k < e ==> h[k] == word[k - w];
    WordEndStops(h, w, e);
    assert h[w..e] == word;
  }

  lemma SkipBlanksStops(s: string, i: nat, w: nat)
    requires i <= w < |s|
    requires forall k :: i <= k < w ==> IsBlank(s[k])
    requires !IsBlank(s[w])
    ensures SkipBlanks(s, i) == w
    decreases w - i
  {
  }

  lemma WordEndStops(s: string, i: nat, e: nat)
    requires i <= e <= |s|
    requires forall k :: i <= k < e ==> !IsSpace(s[k])
    requires e == |s| || IsSpace(s[e])
    ensures WordEnd(s, i) == e
    decreases e - i
  {
  }

  lemma SkipSpacesStops(s: string, i: nat, w: nat)
    requires i <= w < |s|
    requires forall k :: i <= k < w ==> IsSpace(s[k])
    requires !IsSpace(s[w])
    ensures SkipSpaces(s, i) == w
    decreases w - i
  {
  }

  lemma TakeWhileStops(s: string, i: nat, e: nat, accept: string)
    requires i <= e <= |s|
    requires forall k :: i <= k < e ==> s[k] in accept
    requires e == |s| || s[e] !in accept
    ensures TakeWhileIn(s, i, accept) == e
    decreases e - i
  {
  }

  /** Converse: every non-empty result came from a header of exactly that shape. */
  lemma BearerTokenShape(h: string)
    requires BearerToken(h) != []
    ensures exists blanks, rest ::
              && h == BearerPrefix + blanks + BearerToken(h) + rest
              && |blanks| > 0 && AllBlank(blanks)
              && (rest == [] || IsSpace(rest[0]))
  {
    var n := |BearerPrefix|;
    var i := SkipBlanks(h, n);
    var e := WordEnd(h, i);
    var blanks, rest := h[n..i], h[e..];
    assert h == h[..n] + h[n..i] + h[i..e] + h[e..];
    assert |blanks| > 0 && AllBlank(blanks);
  }

  // ---------------------------------------------------------------------------
  // Sscan(s, &i) for an int: fmt's scanInt with verb %v, then strconv.ParseInt(tok, 0, 64)
  // ---------------------------------------------------------------------------

  const DecimalDigits: string := "0123456789"
  const BinaryDigits: string := "01"
  const OctalDigits: string := "01234567"
  const HexDigits: string := "0123456789aAbBcCdDeEfF"

  const MaxInt64: int := 0x7fff_ffff_ffff_ffff
  const MinInt64: int := -0x8000_0000_0000_0000

  function DigitValue(c: char): (d: nat)
    ensures c in DecimalDigits ==> d == c as int - '0' as int
  {
    if '0' <= c <= '9' then c as int - '0' as int
    else if 'a' <= c <= 'f' then c as int - 'a' as int + 10
    else if 'A' <= c <= 'F' then c as int - 'A' as int + 10
    else 0
  }

  /** Positional value of `ds` in `base`, skipping `_` separators. */
  function DigitsValue(ds: string, base: nat): nat
  {
    if ds == [] then 0
    else if ds[|ds| - 1] == '_' then DigitsValue(ds[..|ds| - 1], base)
    else DigitsValue(ds[..|ds| - 1], base) * base + DigitValue(ds[|ds| - 1])
  }

  /**
    strconv's rule for `_` in a base-0 literal: every `_` sits right after a
    digit and right before one. `lead` says a digit-like prefix ("0", "0x", ...)
    stands before `ds`, which lets `ds` open with `_`.
  */
  predicate SeparatorsOk(lead: bool, ds: string)
    decreases |ds|
  {
    if ds == [] then true
    else if ds[0] == '_' then lead && |ds| > 1 && ds[1] != '_' && SeparatorsOk(false, ds[1..])
    else SeparatorsOk(true, ds[1..])
  }

  /**
    The integer `Sscan` reads from `s`, or None when it reports an error
    (the destination then keeps its zero value).
  */
  function SscanInt(s: string): (r: Option<int>)
    ensures r.Some? ==> MinInt64 <= r.value <= MaxInt64
  {
    var i0 := SkipSpaces(s, 0);
    if i0 == |s| then None
    else
      var negative := s[i0] == '-';
      var i1 := if s[i0] == '+' || s[i0] == '-' then i0 + 1 else i0;
      if i1 < |s| && s[i1] == '0' then
        if i1 + 1 < |s| && s[i1 + 1] in "bBoOxX" then
          var base := if s[i1 + 1] in "bB" then 2 else if s[i1 + 1] in "oO" then 8 else 16;
          var digits := if base == 2 then BinaryDigits else if base == 8 then OctalDigits else HexDigits;
          var j := TakeWhileIn(s, i1 + 2, digits + "_");
          // "0x" with no digits after it: strconv reads it as octal "x" and rejects it
          if j == i1 + 2 then None
          else Signed(negative, s[i1 + 2..j], base, true)
        else
          var j := TakeWhileIn(s, i1 + 1, OctalDigits + "_");
          Signed(negative, s[i1 + 1..j], 8, true)
      else
        var j := TakeWhileIn(s, i1, DecimalDigits + "_");
        if j == i1 then None
        else Signed(negative, s[i1..j], 10, false)
  }

  /** strconv.ParseInt's final checks: separator placement and the int64 range. */
  function Signed(negative: bool, ds: string, base: nat, lead: bool): (r: Option<int>)
    ensures r.Some? ==> MinInt64 <= r.value <= MaxInt64
  {
    var v: int := DigitsValue(ds, base);
    if !SeparatorsOk(lead, ds) then None
    else if negative then (if v <= -MinInt64 then Some(-v) else None)
    else (if v <= MaxInt64 then Some(v) else None)
  }

  /**
    The decimal branch of SscanInt: spaces, an optional minus, then a run
    of decimal digits not opening with 0, ended by the input's end or by a
    rune that cannot continue it.
  */
  lemma SscanDecimalRun(s: string, b: nat, start: nat, end: nat)
    requires start < end <= |s|
    requires start == b || (start == b + 1 && s[b] == '-')
    requires forall k :: 0 <= k < b ==> IsSpace(s[k])
    requires forall k :: start <= k < end ==> s[k] in DecimalDigits
    requires s[start] != '0'
    requires end == |s| || s[end] !in DecimalDigits + "_"
    ensures SscanInt(s) == Signed(start > b, s[start..end], 10, false)
  {
    SkipSpacesStops(s, 0, b);
    TakeWhileStops(s, start, end, DecimalDigits + "_");
  }

  // ---------------------------------------------------------------------------
  // Rendering in a base up to 10, the partner of SscanInt
  // ---------------------------------------------------------------------------

  /** Canonical digits of `n` in base 2, 8 or 10, most significant first. */
  function DigitsIn(n: nat, base: nat): (ds: string)
    requires base == 2 || base == 8 || base == 10
    ensures |ds| > 0
    ensures forall k :: 0 <= k < |ds| ==> ds[k] in DecimalDigits[..base]
    ensures n > 0 ==> ds[0] != '0'
    ensures DigitsValue(ds, base) == n
    decreases n
  {
    var q, r := n / base, n % base;
    DivMod(n, base);
    DigitChar(r, base);
    var last := DecimalDigits[r];
    if n < base then
      assert [last][..0] == [];
      [last]
    else
      var ds := DigitsIn(q, base) + [last];
      assert ds[..|ds| - 1] == DigitsIn(q, base);
      ds
  }

  lemma DivMod(n: nat, base: nat)
    requires base == 2 || base == 8 || base == 10
    ensures n == (n / base) * base + n % base
    ensures 0 <= n % base < base
    ensures n < base ==> n / base == 0 && n % base == n
    ensures n >= base ==> 0 < n / base < n
  {
    // one case per base keeps the division by a constant, which is linear
    if base == 2 {
    } else if base == 8 {
    } else {
    }
  }

  /** The `i`-th decimal digit is a digit of every base above `i`, and has value `i`. */
  lemma DigitChar(i: nat, base: nat)
    requires i < base <= 10
    ensures DecimalDigits[i] in DecimalDigits[..base]
    ensures DigitValue(DecimalDigits[i]) == i
  {
  }

  /** strconv.Itoa: optional minus sign, then the canonical decimal digits. */
  function Itoa(n: int): string
  {
    if n < 0 then "-" + DigitsIn(-n, 10) else DigitsIn(n, 10)
  }
}

=== FILE: session.dfy ===
/**
  The auth handlers taken together, over several requests: the invariant
  the two tables keep, login after signup, rotation of refresh tokens, and
  single use of a refresh token along any sequence of requests.
*/
module Session {
  import opened Wrappers
  import opened Models
  import opened Http
  import opened Crypto
  import Utils
  import UserRepo
  import RefreshTokenRepo
  import opened AuthHandler

  /** Both tables are well formed and every refresh token belongs to a registered user. */
  ghost predicate Invariant(st: State) {
    && UserRepo.Valid(st.users)
    && forall t :: t in st.tokens ==> st.tokens[t].username in st.users.rows
  }

  /** A fresh database, with no users and no refresh tokens, satisfies the invariant. */
  lemma InitialStateValid()
    ensures Invariant(State(UserRepo.EmptyStore(), map[]))
  {
  }

  lemma LoginKeepsInvariant(env: Env, st: State, body: Option<LoginRequest>, now: int, nextToken: Option<string>)
    requires Invariant(st)
    ensures Invariant(Login(env, st, body, now, nextToken).state)
  {
  }

  lemma SignupKeepsInvariant(env: Env, st: State, body: Option<SignupRequest>)
    requires Invariant(st)
    ensures Invariant(Signup(env, st, body).state)
  {
  }

  lemma RefreshKeepsInvariant(env: Env, st: State, body: Option<RefreshTokenRequest>, now: int, nextToken: Option<string>)
    requires Invariant(st)
    ensures Invariant(Refresh(env, st, body, now, nextToken).state)
  {
  }

  // ---------------------------------------------------------------------------
  // Signup, then login
  // ---------------------------------------------------------------------------

  /**
    After a successful signup, logging in with the same username succeeds
    exactly with the password given at signup, and otherwise answers 401
    "invalid password" without touching the tables.
  */
  lemma SignupThenLogin(env: Env, st: State, req: SignupRequest, password: string, now: int, nextToken: string)
    requires HashSound(env.suite)
    requires Invariant(st)
    requires Signup(env, st, Some(req)).response.status == StatusCreated
    requires |password| >= PasswordMinLength
    requires env.secret != "" && nextToken !in st.tokens
    ensures var st1 := Signup(env, st, Some(req)).state;
            var out := Login(env, st1, Some(LoginRequest(req.username, password)), now, Some(nextToken));
            && (out.response.status == StatusOK <==> password == req.password)
            && (password != req.password ==>
                  out == Outcome(Response(StatusUnauthorized, Error(InvalidPassword)), st1))
  {
  }

  // ---------------------------------------------------------------------------
  // Login, then refresh; rotation
  // ---------------------------------------------------------------------------

  /**
    The refresh token a successful login hands out is redeemable until
    7 days after the login and rejected with 401 afterwards; while
    redeemable, refreshing yields a new pair for the same user.
  */
  lemma LoginThenRefresh(env: Env, st: State, req: LoginRequest, now: int, t: string, at: int, next: string)
    requires Invariant(st)
    requires Login(env, st, Some(req), now, Some(t)).response.status == StatusOK
    requires t != "" && next != t && next !in st.tokens
    ensures var st1 := Login(env, st, Some(req), now, Some(t)).state;
            var out := Refresh(env, st1, Some(RefreshTokenRequest(t)), at, Some(next));
            && (out.response.status == StatusOK <==> at <= now + RefreshTokenLifetime)
            && (at > now + RefreshTokenLifetime ==>
                  out == Outcome(Response(StatusUnauthorized, Error(InvalidRefreshToken)), st1))
            && (out.response.status == StatusOK ==>
                  && out.response.body == Tokens(Utils.GenerateJwt(env.suite, env.secret, req.username, at).value, next)
                  && t !in out.state.tokens
                  && out.state.tokens[next] == RefreshTokenRepo.Grant(req.username, at + RefreshTokenLifetime))
  {
  }

  /**
    Rotation: once a refresh has been accepted, presenting the same token
    again is answered 401 and changes nothing.
  */
  lemma RefreshReplayRejected(env: Env, st: State, t: string, now: int, next: Option<string>, later: int, again: Option<string>)
    requires t != ""
    requires Redeemable(st.tokens, t, now)
    requires next.Some? ==> next.value != t
    ensures var st1 := Refresh(env, st, Some(RefreshTokenRequest(t)), now, next).state;
            Refresh(env, st1, Some(RefreshTokenRequest(t)), later, again)
            == Outcome(Response(StatusUnauthorized, Error(InvalidRefreshToken)), st1)
  {
  }

  // ---------------------------------------------------------------------------
  // Single use along any sequence of requests
  // ---------------------------------------------------------------------------

  datatype Request =
    | LoginCall(login: Option<LoginRequest>, nextToken: Option<string>)
    | SignupCall(signup: Option<SignupRequest>)
    | RefreshCall(refresh: Option<RefreshTokenRequest>, nextToken: Option<string>)
    | MeCall(ctx: Utils.Context)

  /** One request and the clock reading it is served at. */
  datatype Step = Step(request: Request, now: int)

  /** The route table's dispatch to the four auth handlers. */
  function Serve(env: Env, st: State, step: Step): (out: Outcome)
    ensures out.state.tokens.Keys <= st.tokens.Keys + Generated(step)
    ensures forall u :: u in out.state.tokens && u !in Generated(step) ==>
              u in st.tokens && out.state.tokens[u] == st.tokens[u]
  {
    match step.request
    case LoginCall(b, n) => Login(env, st, b, step.now, n)
    case SignupCall(b) => Signup(env, st, b)
    case RefreshCall(b, n) => Refresh(env, st, b, step.now, n)
    case MeCall(ctx) => Outcome(AuthHandler.Me(st.users, ctx), st)
  }

  /** The refresh token the generator handed out during the step, if any. */
  function Generated(step: Step): set<string> {
    match step.request
    case LoginCall(_, n) => FreshSet(n)
    case RefreshCall(_, n) => FreshSet(n)
    case _ => {}
  }

  /** The refresh token the step accepted (and so consumed), if any. */
  function Redeemed(env: Env, st: State, step: Step): (r: seq<string>)
    ensures |r| <= 1
    ensures |r| == 1 ==> r[0] in st.tokens
    ensures |r| == 1 && r[0] !in Generated(step) ==> r[0] !in Serve(env, st, step).state.tokens
  {
    match step.request
    case RefreshCall(b, _) =>
      if Presented(b) && Redeemable(st.tokens, b.value.refreshToken, step.now) then [b.value.refreshToken] else []
    case _ => []
  }

  /** Every refresh token accepted along the run, in order. */
  function RedeemedAll(env: Env, st: State, steps: seq<Step>): seq<string>
    decreases |steps|
  {
    if steps == [] then []
    else Redeemed(env, st, steps[0]) + RedeemedAll(env, Serve(env, st, steps[0]).state, steps[1..])
  }

  function GeneratedAll(steps: seq<Step>): set<string>
    decreases |steps|
  {
    if steps == [] then {} else Generated(steps[0]) + GeneratedAll(steps[1..])
  }

  /**
    The generator never repeats a token: each one it hands out lies outside
    `seen` and outside every token it handed out earlier in the run.
  */
  ghost predicate NeverReissued(seen: set<string>, steps: seq<Step>)
    decreases |steps|
  {
    steps == [] || (Generated(steps[0]) !! seen && NeverReissued(seen + Generated(steps[0]), steps[1..]))
  }

  predicate Distinct(s: seq<string>) {
    forall i, j :: 0 <= i < j < |s| ==> s[i] != s[j]
  }

  lemma {:induction false} NeverReissuedAvoids(seen: set<string>, steps: seq<Step>)
    requires NeverReissued(seen, steps)
    ensures GeneratedAll(steps) !! seen
    decreases |steps|
  {
    if steps != [] {
      NeverReissuedAvoids(seen + Generated(steps[0]), steps[1..]);
    }
  }

  /** Only a token stored at the start or generated during the run can be accepted. */
  lemma {:induction false} RedeemedWereIssued(env: Env, st: State, steps: seq<Step>)
    ensures forall t :: t in RedeemedAll(env, st, steps) ==> t in st.tokens || t in GeneratedAll(steps)
    decreases |steps|
  {
    if steps != [] {
      var st1 := Serve(env, st, steps[0]).state;
      RedeemedWereIssued(env, st1, steps[1..]);
    }
  }

  /**
    Single use: along any run in which the generator never repeats a token,
    no refresh token is accepted twice.
  */
  lemma {:induction false} SingleUse(env: Env, st: State, steps: seq<Step>, seen: set<string>)
    requires st.tokens.Keys <= seen
    requires NeverReissued(seen, steps)
    ensures Distinct(RedeemedAll(env, st, steps))
    decreases |steps|
  {
    if steps != [] {
      var st1 := Serve(env, st, steps[0]).state;
      var seen1 := seen + Generated(steps[0]);
      SingleUse(env, st1, steps[1..], seen1);
      var here := Redeemed(env, st, steps[0]);
      var rest := RedeemedAll(env, st1, steps[1..]);
      if |here| == 1 {
        var t := here[0];
        assert t !in Generated(steps[0]);
        assert t !in st1.tokens;
        RedeemedWereIssued(env, st1, steps[1..]);
        NeverReissuedAvoids(seen1, steps[1..]);
        assert t !in rest;
        assert RedeemedAll(env, st, steps) == [t] + rest;
      } else {
        assert RedeemedAll(env, st, steps) == rest;
      }
    }
  }
}

=== FILE: user_repo.dfy ===
/**
  internal/repositories/user_repo.go: the User table as a finite map keyed by
  username, plus the next row id SQLite will hand out. Username and email are
  unique columns; ids are allocated in increasing order and never reused.
*/
module UserRepo {
  import opened Wrappers
  import opened Models

  datatype UserStore = UserStore(rows: map<string, User>, nextId: int)

  const NotFound: string := "user not found"
  const Conflict: string := "error creating user: UNIQUE constraint failed"

  function EmptyStore(): (s: UserStore)
    ensures Valid(s)
  {
    UserStore(map[], 1)
  }

  predicate EmailTaken(s: UserStore, email: string) {
    exists n :: n in s.rows && s.rows[n].email == email
  }

  /**
    The table's invariant: each row sits under its own username, ids are
    positive, below the next id and pairwise distinct, emails are distinct.
  */
  ghost predicate Valid(s: UserStore) {
    && s.nextId >= 1
    && (forall n :: n in s.rows ==> s.rows[n].username == n && 1 <= s.rows[n].id < s.nextId)
    && (forall a, b :: a in s.rows && b in s.rows && a != b ==> s.rows[a].id != s.rows[b].id)
    && (forall a, b :: a in s.rows && b in s.rows && a != b ==> s.rows[a].email != s.rows[b].email)
  }

  /** The Go result of CreateUser: the new row id, or 0 with an error. */
  datatype Inserted = Inserted(id: int, err: Option<string>, store: UserStore)

  /**
    INSERT of username, email and password (the id in `u` is ignored). It
    fails, storing nothing and returning id 0, exactly when the username or
    the email is already taken.
  */
  function CreateUser(s: UserStore, u: User): (r: Inserted)
    ensures r.err.None? <==> u.username !in s.rows && !EmailTaken(s, u.email)
    ensures r.err.Some? ==> r.id == 0 && r.store == s && r.err == Some(Conflict)
    ensures r.err.None? ==> r.store.rows.Keys == s.rows.Keys + {u.username}
    ensures r.err.None? ==> r.store.rows[u.username] == User(r.id, u.username, u.email, u.password)
    ensures r.err.None? ==> forall n :: n in s.rows ==> r.store.rows[n] == s.rows[n]
    ensures r.err.None? && Valid(s) ==> r.id >= 1 && forall n :: n in s.rows ==> s.rows[n].id != r.id
  {
    if u.username in s.rows || EmailTaken(s, u.email) then Inserted(0, Some(Conflict), s)
    else
      var id := s.nextId;
      Inserted(id, None, UserStore(s.rows[u.username := User(id, u.username, u.email, u.password)], id + 1))
  }

  /** SELECT by exact username; any miss is reported as "user not found". */
  function GetUserByUsername(s: UserStore, username: string): (r: Result<User>)
    ensures r.Ok? <==> username in s.rows
    ensures r.Ok? ==> r.value == s.rows[username]
    ensures r.Err? ==> r.error == NotFound
  {
    if username in s.rows then Ok(s.rows[username]) else Err(NotFound)
  }

  /** A successful CreateUser keeps the table's invariant. */
  lemma CreateUserKeepsValid(s: UserStore, u: User)
    requires Valid(s)
    ensures Valid(CreateUser(s, u).store)
  {
  }

  /** Create followed by Get on the same username returns what was stored, unchanged. */
  lemma CreateThenGet(s: UserStore, u: User)
    requires CreateUser(s, u).err.None?
    ensures var r := CreateUser(s, u);
            GetUserByUsername(r.store, u.username) == Ok(User(r.id, u.username, u.email, u.password))
  {
  }

  /** Users stored earlier are found exactly as before after another user is created. */
  lemma CreateKeepsOthers(s: UserStore, u: User, name: string)
    requires name != u.username
    ensures GetUserByUsername(CreateUser(s, u).store, name) == GetUserByUsername(s, name)
  {
  }
}

=== FILE: utils.dfy ===
/**
  internal/utils/utils.go: the JWT secret, access-token issuing, the bearer
  middleware, ParseInt and password hashing. The environment variable
  JWT_SECRET is read at each use and enters as the parameter `secret`.
*/
module Utils {
  import opened Wrappers
  import opened Crypto
  import opened Http
  import Scan

  /** 24 hours, in seconds: the access token's lifetime. */
  const AccessTokenLifetime: int := 24 * 60 * 60

  const SecretNotSet: string := "JWT_SECRET environment variable not set"

  /** getJWTSecret: the variable unchanged; an empty one panics (here: Err). */
  function GetJwtSecret(env: string): (r: Result<string>)
    ensures r.Err? <==> env == ""
    ensures r.Ok? ==> r.value == env
  {
    if env == "" then Err(SecretNotSet) else Ok(env)
  }

  /** The claim set GenerateJWT builds: `{username, exp: now + 24h}`. */
  function AccessClaims(username: string, now: int): Claims {
    Claims(Some(username), Some(now + AccessTokenLifetime), None)
  }

  /**
    GenerateJWT: the claims above, signed HS256 (section 3.2 of RFC 7518)
    with the configured secret. The only failure is the panic of an unset
    secret; SignedString with HS256 and a byte key does not fail.
  */
  function GenerateJwt(s: Suite, secret: string, username: string, now: int): (r: Result<string>)
    ensures r.Err? <==> secret == ""
    ensures CodecSound(s) && r.Ok? ==> s.decode(r.value).Some? && s.decode(r.value).value.alg == HS256
    ensures CodecSound(s) && r.Ok? && DateExact(Some(now + AccessTokenLifetime)) ==>
              && s.decode(r.value).Some?
              && s.decode(r.value).value.alg == HS256
              && s.decode(r.value).value.claims == Claims(Some(username), Some(now + AccessTokenLifetime), None)
              && s.decode(r.value).value.signature == s.mac(HS256, s.decode(r.value).value.claims, secret)
  {
    match GetJwtSecret(secret)
    case Err(e) => Err(e)
    case Ok(key) => Ok(Sign(s, HS256, AccessClaims(username, now), key))
  }

  /** HashPassword: bcrypt at the default cost; its error is passed on. */
  function HashPassword(s: Suite, password: string): (r: Result<string>)
    ensures r.Ok? <==> s.hash(password).Some?
    ensures HashSound(s) && r.Ok? ==> forall q :: s.matches(r.value, q) <==> q == password
  {
    match s.hash(password)
    case None => Err("bcrypt: could not hash password")
    case Some(d) => Ok(d)
  }

  // ---------------------------------------------------------------------------
  // AuthMiddlewareJWT
  // ---------------------------------------------------------------------------

  /** The request-scoped values a handler can read with c.Get; only "username" matters here. */
  datatype Context = Context(username: Option<string>)

  /** What the middleware does with a request: abort with a status, panic, or call c.Next(). */
  datatype Verdict = Abort(status: int, message: string) | Crash | Next(ctx: Context)

  const MissingToken: string := "missing token"
  const InvalidToken: string := "invalid token"

  /**
    The key function the middleware hands to jwt.Parse: any non-HMAC method
    is refused; otherwise getJWTSecret, which panics when the secret is unset.
  */
  function KeyFunc(secret: string): (f: Alg -> KeyLookup)
    ensures forall a :: f(a).Refused? <==> !IsHmac(a)
    ensures forall a :: f(a).Panics? <==> IsHmac(a) && GetJwtSecret(secret).Err?
    ensures forall a :: f(a).Key? ==> GetJwtSecret(secret) == Ok(f(a).key)
  {
    a => if !IsHmac(a) then Refused("unexpected signing method")
         else if secret == "" then Panics
         else Key(secret)
  }

  /**
    AuthMiddlewareJWT: take the bearer word from the Authorization header,
    abort 401 "missing token" when there is none, abort 401 "invalid token"
    unless jwt.Parse declares the token valid, and otherwise continue with
    the context as it was: no identity is stored for later handlers.
  */
  function AuthMiddleware(s: Suite, secret: string, header: string, ctx: Context, now: int): (v: Verdict)
    ensures Scan.BearerToken(header) == [] ==> v == Abort(StatusUnauthorized, MissingToken)
    ensures v.Next? ==> v.ctx == ctx
    ensures v.Next? <==>
              var j := s.decode(Scan.BearerToken(header));
              && Scan.BearerToken(header) != []
              && j.Some? && IsHmac(j.value.alg) && secret != ""
              && j.value.signature == s.mac(j.value.alg, j.value.claims, secret)
              && ClaimsValid(j.value.claims, now)
    ensures v.Crash? <==>
              var j := s.decode(Scan.BearerToken(header));
              Scan.BearerToken(header) != [] && j.Some? && IsHmac(j.value.alg) && secret == ""
    ensures v.Abort? && Scan.BearerToken(header) != [] ==> v == Abort(StatusUnauthorized, InvalidToken)
  {
    var token := Scan.BearerToken(header);
    if token == [] then Abort(StatusUnauthorized, MissingToken)
    else
      match Parse(s, token, KeyFunc(secret), now)
      case Panicked => Crash
      case Invalid(_) => Abort(StatusUnauthorized, InvalidToken)
      case Valid(_) => Next(ctx)
  }

  /** The Authorization header a client sends with a token. */
  function BearerHeader(token: string): string {
    Scan.BearerPrefix + " " + token
  }

  /**
    An access token from GenerateJWT, presented under the same secret, passes
    the middleware exactly while `at` is before its `exp` of issue time + 24h.
  */
  lemma GeneratedTokenAccepted(s: Suite, secret: string, username: string, issued: int, ctx: Context, at: int)
    requires JwtSound(s)
    requires secret != ""
    requires DateExact(Some(issued + AccessTokenLifetime))
    ensures var token := GenerateJwt(s, secret, username, issued).value;
            AuthMiddleware(s, secret, BearerHeader(token), ctx, at)
            == (if at < issued + AccessTokenLifetime then Next(ctx) else Abort(StatusUnauthorized, InvalidToken))
  {
    var token := GenerateJwt(s, secret, username, issued).value;
    var j := Jwt(HS256, AccessClaims(username, issued), s.mac(HS256, AccessClaims(username, issued), secret));
    assert token == s.encode(j);
    Scan.BearerTokenOfHeader(" ", token, []);
    assert BearerHeader(token) == Scan.BearerPrefix + " " + token + [];
  }

  /** A token signed under another secret is rejected as invalid. */
  lemma ForeignTokenRejected(s: Suite, secret: string, other: string, claims: Claims, ctx: Context, at: int)
    requires JwtSound(s) && MacBindsKey(s) && DatesExact(claims)
    requires secret != "" && other != secret
    ensures AuthMiddleware(s, secret, BearerHeader(Sign(s, HS256, claims, other)), ctx, at)
            == Abort(StatusUnauthorized, InvalidToken)
  {
    var token := Sign(s, HS256, claims, other);
    Scan.BearerTokenOfHeader(" ", token, []);
    assert BearerHeader(token) == Scan.BearerPrefix + " " + token + [];
  }

  /** A token whose header names a non-HMAC method ("none", RS256, ...) is rejected, whatever its signature. */
  lemma NonHmacRejected(s: Suite, secret: string, name: NonHmacName, claims: Claims, sig: string, ctx: Context, at: int)
    requires JwtSound(s)
    ensures AuthMiddleware(s, secret, BearerHeader(s.encode(Jwt(NonHmac(name), claims, sig))), ctx, at)
            == Abort(StatusUnauthorized, InvalidToken)
  {
    var token := s.encode(Jwt(NonHmac(name), claims, sig));
    Scan.BearerTokenOfHeader(" ", token, []);
    assert BearerHeader(token) == Scan.BearerPrefix + " " + token + [];
  }

  // ---------------------------------------------------------------------------
  // ParseInt
  // ---------------------------------------------------------------------------

  /** ParseInt: what fmt.Sscan reads into an int, or 0 when it reports an error. */
  function ParseInt(s: string): (i: int)
    ensures Scan.MinInt64 <= i <= Scan.MaxInt64
    ensures Scan.SscanInt(s).None? ==> i == 0
  {
    match Scan.SscanInt(s)
    case Some(v) => v
    case None => 0
  }

  /** Whether `s` opens, after spaces and an optional sign, with a decimal digit. */
  predicate BeginsWithInteger(s: string) {
    var i := Scan.SkipSpaces(s, 0);
    var j := if i < |s| && (s[i] == '+' || s[i] == '-') then i + 1 else i;
    j < |s| && s[j] in Scan.DecimalDigits
  }

  /** Input that does not open with an integer parses as 0. */
  lemma ParseIntNoInteger(s: string)
    requires !BeginsWithInteger(s)
    ensures ParseInt(s) == 0
  {
  }

  /**
    Decimal round trip: ParseInt reads back every int64 written by
    strconv.Itoa, after any run of spaces and before any text that cannot
    continue the number (for 0, not a base letter either).
  */
  lemma ParseIntOfItoa(blanks: string, n: int, rest: string)
    requires forall k :: 0 <= k < |blanks| ==> Scan.IsSpace(blanks[k])
    requires Scan.MinInt64 <= n <= Scan.MaxInt64
    requires rest == [] || (rest[0] !in Scan.DecimalDigits + "_" && (n == 0 ==> rest[0] !in "bBoOxX"))
    ensures ParseInt(blanks + Scan.Itoa(n) + rest) == n
  {
    if n == 0 {
      ParseIntOfZero(blanks, rest);
    } else {
      ParseIntOfNonZero(blanks, n, rest);
    }
  }

  lemma ParseIntOfZero(blanks: string, rest: string)
    requires forall k :: 0 <= k < |blanks| ==> Scan.IsSpace(blanks[k])
    requires rest == [] || (rest[0] !in Scan.DecimalDigits + "_" && rest[0] !in "bBoOxX")
    ensures ParseInt(blanks + Scan.Itoa(0) + rest) == 0
  {
    var s := blanks + "0" + rest;
    var b := |blanks|;
    assert Scan.Itoa(0) == "0";
    assert s[..b] == blanks && s[b] == '0' && s[b + 1..] == rest;
    Scan.SkipSpacesStops(s, 0, b);
    Scan.TakeWhileStops(s, b + 1, b + 1, Scan.OctalDigits + "_");
    assert Scan.SscanInt(s) == Scan.Signed(false, [], 8, true);
  }

  lemma ParseIntOfNonZero(blanks: string, n: int, rest: string)
    requires forall k :: 0 <= k < |blanks| ==> Scan.IsSpace(blanks[k])
    requires Scan.MinInt64 <= n <= Scan.MaxInt64 && n != 0
    requires rest == [] || rest[0] !in Scan.DecimalDigits + "_"
    ensures ParseInt(blanks + Scan.Itoa(n) + rest) == n
  {
    var num := Scan.Itoa(n);
    var s := blanks + num + rest;
    var b := |blanks|;
    var ds := Scan.DigitsIn(if n < 0 then -n else n, 10);
    var start := b + (if n < 0 then 1 else 0);
    var end := b + |num|;
    assert forall k :: 0 <= k < |ds| ==> ds[k] in Scan.DecimalDigits by {
      assert Scan.DecimalDigits[..10] == Scan.DecimalDigits;
    }
    NoSeparatorsOk(false, ds);
    assert Scan.Signed(n < 0, ds, 10, false) == Some(n);
    assert s[..b] == blanks && s[b..end] == num && s[end..] == rest;
    assert s[start..end] == ds;
    Scan.SscanDecimalRun(s, b, start, end);
  }

  /** A digit string without `_` satisfies strconv's separator rule. */
  lemma {:induction false} NoSeparatorsOk(lead: bool, ds: string)
    requires forall k :: 0 <= k < |ds| ==> ds[k] in Scan.DecimalDigits
    ensures Scan.SeparatorsOk(lead, ds)
    decreases |ds|
  {
    if ds != [] {
      NoSeparatorsOk(true, ds[1..]);
    }
  }

  /**
    A leading zero makes the digits after it octal, as in Go's integer
    literals: "0" and the base-8 digits of `n` read as `n` ("010" is 8),
    whatever follows that cannot continue an octal number.
  */
  lemma ParseIntOfOctal(n: int, rest: string)
    requires 0 <= n <= Scan.MaxInt64
    requires rest == [] || rest[0] !in Scan.OctalDigits + "_"
    ensures ParseInt("0" + Scan.DigitsIn(n, 8) + rest) == n
  {
    var ds := Scan.DigitsIn(n, 8);
    var s := "0" + ds + rest;
    var end := 1 + |ds|;
    assert Scan.DecimalDigits[..8] == Scan.OctalDigits;
    assert s[1..end] == ds && s[end..] == rest;
    assert s[1] == ds[0] && s[1] !in "bBoOxX";
    Scan.SkipSpacesStops(s, 0, 0);
    Scan.TakeWhileStops(s, 1, end, Scan.OctalDigits + "_");
    NoSeparatorsOk(true, ds);
    assert Scan.SscanInt(s) == Scan.Signed(false, ds, 8, true);
  }
}

=== FILE: wrappers.dfy ===
/** Option and Result: the model's stand-ins for Go's `(value, error)` returns. */
module Wrappers {

  datatype Option<+T> = None | Some(value: T)

  /** `Err` carries the error text the Go code would have put in its `error`. */
  datatype Result<+T> = Ok(value: T) | Err(error: string)
}
